=== FILE: README.md ===
# Weather aggregator: a Dafny model

This project models the data core of a small weather widget. The widget answers
a location query by making three upstream sub-calls: current conditions,
history, and forecast. It merges their answers into one list of days, sorted by
date. It caches the merged result for fifteen minutes, and exposes it to the UI
through a React hook that also tracks the selected day.

The modelled parts, by module:

- `Types`: the records of `src/types.ts`. Every field the code reads
  defensively is an `Option`. `None` stands for both `null` and `undefined`.
- `SubCall`: `fetchWeather`. It classifies one upstream answer (a thrown
  exception or a parsed JSON body) as success or failure with a message.
- `TtlCache`: `getCache` / `setCache`, over an explicit store value and an
  explicit clock.
- `DateOrder`, `DaySort`: the final `localeCompare` sort. It is a stable
  insertion sort under code-point (character) lexicographic order.
- `Pipeline`: the merge steps of `fetchCombined`:
  - normalise the history records;
  - add today from the current snapshot;
  - add forecast days whose date is new;
  - fail when the current sub-call failed;
  - synthesise placeholder days when only one day is present;
  - build the location label;
  - sort.
- `MergeProperties`: what the merge guarantees.
- `WeatherStack`: `fetchCombined` with its cache wrapper. Besides the result it
  returns the updated store and the trace of sub-calls it would send.
- `UseWeather`: the `useWeather` hook as a state machine. The effect run and
  the promise settling are separate transitions.
- `EndToEnd`: the hook and the lookup composed, for the browser-test scenarios.

Dates are not computed. A `Calendar` supplies two things:

- today's string, as `new Date().toISOString().slice(0, 10)` gives it;
- the string for the local midnight `n` days away.

The two are kept separate because the source builds them differently. Today is
formatted in UTC. The offsets are local midnights formatted in UTC. The model
therefore never assumes that `dayAt(0) == today`. Lemmas that need calendar
order take it as a precondition (`ChronologicalWindow`).

Where the code behaves in a way a reader might not expect, the model follows
the code:

- **Location label.** The label's template literal breaks its line before the
  country segment. The label is `name, region` + `"\n    "` + `, country`, not
  the `"Wellington, New Zealand"` one might expect. See
  `MergeProperties.WellingtonLabel`.
- **Cache write.** The write is not best-effort. `setCache` is outside any
  `try`, so a store that refuses writes makes the lookup reject
  (`Completion.Rejected`) after a successful fetch.
- **Cache expiry.** An entry is still served at exactly its expiry time. Only
  `now > expires` expires it.
- **Placeholder values.**
  - Placeholders copy the snapshot only for the fields it has. Missing numbers
    become 0, and missing texts stay missing.
  - Synthesis runs whenever exactly one day is present. That day need not be
    today.
- **Duplicate dates.** Today's entry is appended without any check against the
  history days. "No duplicate dates" therefore holds only when history does not
  already contain today's date (`MergeProperties.DistinctDates`).
- **Sub-call order.** The sub-calls are awaited one after the other, in the
  order current, history, forecast.
- **HTTP status.** The status is never inspected. A 500 answer with a normal
  body is a success.
- **JSON `null` body.** A body of JSON `null` fails with the `TypeError` message
  from reading `.error` of `null`. The model uses V8's wording of that message.
  Other engines word it differently, and nothing downstream relies on more than
  the message being non-empty.

## Model

| member | source | states |
|---|---|---|
| `SubCall.Classify` | src/services/weatherStack.ts:25-39 | A sub-call fails exactly when it threw, its body is `null`, or its body has `success === false` or an `error`. A failure message is never empty. A non-empty thrown message or `error.info` is surfaced verbatim. A thrown value with no message or an empty one gives "Network error". An error object without a non-empty `info`, or `success: false` without an error object, gives "API error". Any other object body is returned unchanged. |
| `SubCall.ApiDownBody` | e2e/weather.spec.ts:48-53 | The body the error test injects classifies as a failure with message "API down". |
| `TtlCache.StorageKeyInjective` | src/services/weatherStack.ts:46 | Distinct cache keys map to distinct namespaced storage keys. |
| `TtlCache.GetCache` | src/services/weatherStack.ts:44-57 | A read returns a value exactly when the entry is present, parseable and not past its expiry. The value is then the stored one and the store is untouched. An expired entry is removed. A missing or unparseable entry leaves the store as it was. |
| `TtlCache.SetCache` | src/services/weatherStack.ts:58-61 | A write succeeds exactly when the store accepts writes. It adds only its own key and leaves every other entry unchanged. The new entry is fresh up to `now + ttl` and stale one millisecond later. |
| `TtlCache.WriteThenReadHits` | src/services/weatherStack.ts:49-53 | Reading a written key at or before its expiry returns the written value and leaves the store unchanged. |
| `TtlCache.WriteThenReadExpired` | src/services/weatherStack.ts:49-51 | Reading a written key after its expiry misses, deletes the entry and keeps all other entries. |
| `TtlCache.WritesAreIsolated` | src/services/weatherStack.ts:58-61 | A write under one key does not change what a read under another key returns. |
| `DateOrder.LexLeTotal` | src/services/weatherStack.ts:194 | The date order used by the sort compares any two strings. |
| `DateOrder.LexLeAntisymmetric` | src/services/weatherStack.ts:194 | Two strings ordered both ways are equal. |
| `DateOrder.LexLeTransitive` | src/services/weatherStack.ts:194 | The date order is transitive. |
| `DaySort.Insert` | src/services/weatherStack.ts:194 | Inserting a day into a sorted list keeps it sorted, and the result is the list plus that day as a multiset. |
| `DaySort.SortByDate` | src/services/weatherStack.ts:194 | The sorted days are in ascending date order and are a permutation of the input. |
| `DaySort.SortKeepsDistinct` | src/services/weatherStack.ts:194 | Sorting neither creates nor removes a duplicate date. |
| `DaySort.PermutationKeepsDistinct` | src/services/weatherStack.ts:194 | Any rearrangement of a list without duplicate dates is itself without duplicate dates. |
| `DaySort.InsertFirstOfItsDate` | src/services/weatherStack.ts:194 | An inserted day lands ahead of every day that already has its date, and the other days keep their order. |
| `DaySort.SortIsStable` | src/services/weatherStack.ts:194 | The sort is stable: for every date, the days with that date appear in the output in their input order. |
| `DaySort.SortedInputUnchanged` | src/services/weatherStack.ts:194 | Already-sorted days come back in the same order. |
| `DaySort.StrictChain` | src/services/weatherStack.ts:194 | Days whose neighbours are strictly ascending are sorted and have distinct dates. |
| `Pipeline.NormaliseDay` | src/services/weatherStack.ts:106-114 | A normalised day has every field set. The average temperature comes from the record, defaulting to 0. Precipitation, wind, pressure, description and icon come from the hourly snapshot at index 12. Missing numbers default to 0 and missing texts default to the empty string. |
| `Pipeline.NormaliseRecordDates` | src/services/weatherStack.ts:104-115 | The dates of a normalised record are exactly its keys. Distinct keys give distinct dates. |
| `Pipeline.AppendAbsentContents` | src/services/weatherStack.ts:136-146 | After guarded pushes, the dates present are the old ones plus the candidates'. Every day is an old day or a candidate whose date was absent. |
| `Pipeline.AppendAbsentKeepsDistinct` | src/services/weatherStack.ts:177-179 | Guarded pushes never introduce a duplicate date into a list without one. |
| `Pipeline.AppendAbsentAllNew` | src/services/weatherStack.ts:175-180 | Candidates with distinct dates, none already present, are all appended in order. |
| `Pipeline.AppendAbsentNothingNew` | src/services/weatherStack.ts:133-148 | Candidates whose dates are all present change nothing. |
| `Pipeline.TodayDay` | src/services/weatherStack.ts:121-129 | Today's day copies the snapshot's readings without defaults; `MergeProperties.TodayFromSnapshot` states that it is the only day dated today, and `MergeProperties.PlaceholderCopiesSnapshot` relates it to a placeholder. |
| `Pipeline.Placeholder` | src/services/weatherStack.ts:166-174 | A placeholder copies the snapshot with missing numbers as 0 and texts left missing; stated by `MergeProperties.PlaceholderCopiesSnapshot`, `PlaceholdersWithoutSnapshot` and `SynthesisFromSnapshot`. |
| `Pipeline.AppendAbsent` | src/services/weatherStack.ts:136-146 | The guarded pushes only append: the old list is kept as a prefix. Its contents are stated by `AppendAbsentContents`. |
| `Pipeline.LocationLabel` | src/services/weatherStack.ts:183-189 | The label is the name, optional region, line break and optional country, or the query without a location; stated by `MergeProperties.LabelSegments` and `LabelFallsBackToQuery`. |
| `Pipeline.Merge` | src/services/weatherStack.ts:150-195 | The merge fails exactly when the current sub-call failed, with its message when that is non-empty. On success the days are sorted and are a permutation of the collected and synthesised days. The snapshot is the current sub-call's, and the label is `LocationLabel`. |
| `MergeProperties.CurrentFailureDecides` | src/services/weatherStack.ts:151-153 | When current fails, history and forecast have no effect. The message falls back to "Current weather API failed" only when current's message is empty. |
| `MergeProperties.DistinctDates` | src/services/weatherStack.ts:100-148 | With distinct history dates that exclude today, the merged days are sorted and no date occurs twice. |
| `MergeProperties.DuplicateTodayWhenHistoryHasIt` | src/services/weatherStack.ts:119-130 | With a snapshot and today's date among the history dates, the result holds two days with the same date. |
| `MergeProperties.SortedMembership` | src/services/weatherStack.ts:191-195 | A day is in the result exactly when it was collected or synthesised. |
| `MergeProperties.TodayFromSnapshot` | src/services/weatherStack.ts:118-136 | With a snapshot, and history not on today, the merge succeeds and today's day, read straight off the snapshot, is the only day with today's date. A forecast entry or placeholder for today is dropped. |
| `MergeProperties.PlaceholderCopiesSnapshot` | src/services/weatherStack.ts:166-174 | When the snapshot has all four numbers, a placeholder carries exactly today's values under another date. |
| `MergeProperties.SynthesisDates` | src/services/weatherStack.ts:164-180 | When exactly one day was collected and current succeeded, the result's dates are that day's date together with the calendar dates at offsets -3..3. |
| `MergeProperties.SynthesisFromSnapshot` | src/services/weatherStack.ts:165-180 | In that case every result day that was not collected is the placeholder built from the snapshot for its own date. |
| `MergeProperties.PlaceholdersWithoutSnapshot` | src/services/weatherStack.ts:163-181 | With no snapshot, every added day is all zeros with no description or icon. |
| `MergeProperties.PlaceholdersOnlyForOneDay` | src/services/weatherStack.ts:164 | Unless exactly one day was collected, nothing is synthesised. |
| `MergeProperties.NoPlaceholdersWhenCovered` | src/services/weatherStack.ts:100-148 | With distinct, non-overlapping history and forecast days not on today, and at least one of them, the result holds exactly those days plus today. |
| `MergeProperties.WindowSortsIntoPlace` | src/services/weatherStack.ts:194 | Today followed by the six placeholders sorts into calendar order from three days back to three days ahead. |
| `MergeProperties.SevenDayWindow` | src/services/weatherStack.ts:163-195 | With only the current sub-call contributing, the result is exactly seven days: three placeholders, today, three placeholders. |
| `MergeProperties.WellingtonLabel` | src/services/weatherStack.ts:183-189 | Name "Wellington", empty region and country "New Zealand" give `"Wellington\n    , New Zealand"`. |
| `MergeProperties.LabelSegments` | src/services/weatherStack.ts:183-188 | The label is the city name, then `, region` exactly when the region is non-empty, then the line break, then `, country` exactly when the country is non-empty. Otherwise it ends with the line break. |
| `MergeProperties.LabelFallsBackToQuery` | src/services/weatherStack.ts:184-189 | Without a successful current sub-call with a location, the label is the raw query. |
| `WeatherStack.CacheKeyInjective` | src/services/weatherStack.ts:66 | Different queries use different storage keys. |
| `WeatherStack.SubCalls` | src/services/weatherStack.ts:81-98 | The sub-calls in awaited order: current, history from three days back to yesterday, a three-day forecast; `FetchCombined` states that a miss sends exactly these. |
| `WeatherStack.FetchCombined` | src/services/weatherStack.ts:63-200 | A fresh hit returns the stored value with no sub-call and no store change. A miss sends current, then history from three days back to yesterday, then a three-day forecast. A failed merge is returned and writes nothing. A successful merge is written with a fifteen-minute lifetime, or rejects when the store refuses writes. After a failed merge or a refused write the store is what the cache read left, so nothing is written under the query's key. Whether the store accepts writes never changes, and other keys are never touched. |
| `WeatherStack.RejectedLookupRefetches` | src/services/weatherStack.ts:194 | A lookup whose write was refused leaves the store refusing writes and no fresh entry: the next lookup, at any time, makes all three sub-calls again. |
| `WeatherStack.RepeatedLookupHits` | src/services/weatherStack.ts:66-68 | A first lookup that misses makes the three sub-calls and returns the merged result. A second lookup within the lifetime returns that result unchanged, with no sub-call. |
| `WeatherStack.ExpiredLookupRefetches` | src/services/weatherStack.ts:49-52 | After the lifetime the next lookup makes all three sub-calls again. Any entry left afterwards is the new write. |
| `WeatherStack.UnreadableEntryIsMiss` | src/services/weatherStack.ts:54-56 | An unparseable stored entry behaves as no entry: all sub-calls are made, with the same outcome. |
| `WeatherStack.CurrentFailureSurfaces` | src/services/weatherStack.ts:151-153 | A failed current sub-call fails the lookup with exactly its message. |
| `WeatherStack.SideFailuresTolerated` | src/services/weatherStack.ts:155-161 | With a successful current sub-call and a writable store, the lookup succeeds whatever history and forecast return. |
| `WeatherStack.LookupsAreIsolated` | src/services/weatherStack.ts:66-67 | A lookup for one query does not change what the cache returns for another. |
| `UseWeather.Initial` | src/hooks/useWeather.ts:6-10 | The `useState` defaults; `UseWeather.FirstRenderFetchesInitialQuery` states what the first effect does from them. |
| `UseWeather.FirstRenderFetchesInitialQuery` | src/hooks/useWeather.ts:6-18 | On the first render nothing is shown or selected, and a lookup starts (with loading on) exactly when the initial query is non-empty. |
| `UseWeather.RunEffect` | src/hooks/useWeather.ts:12-18 | An empty query does nothing. Otherwise loading starts, the error is cleared, and exactly that query is fetched. |
| `UseWeather.SetQuery` | src/hooks/useWeather.ts:12-34 | Setting the query always records it. The effect runs again only when the query changes, and then behaves as `RunEffect` for the new query. |
| `UseWeather.SameQueryFetchesOnce` | src/hooks/useWeather.ts:34 | Submitting the same non-empty query twice starts exactly one lookup. |
| `UseWeather.FindByDate` | src/hooks/useWeather.ts:38 | The lookup finds a day exactly when the date occurs, and returns the first day with that date. |
| `UseWeather.DefaultSelection` | src/hooks/useWeather.ts:22-27 | Nothing is selected exactly when there are no days. The selection is always a date in the list. It is today exactly when today is present, and otherwise the middle day's date. |
| `UseWeather.Settle` | src/hooks/useWeather.ts:19-33 | Loading always ends. Success shows the data with the default selection. Failure shows the message and drops the data. A rejection changes nothing else. |
| `UseWeather.SelectDate` | src/hooks/useWeather.ts:8 | Selecting a date changes the selection only. |
| `UseWeather.Selected` | src/hooks/useWeather.ts:36-39 | A day is selected exactly when there is data and a non-empty selected date that some day carries. It is the first day with that date. |
| `UseWeather.SuccessSelectsADay` | src/hooks/useWeather.ts:20-27 | After a success with at least one day, and no empty dates, some day is selected. It is today's day when there is one. |
| `UseWeather.ClickSelectsTile` | src/hooks/useWeather.ts:36-39 | With distinct dates, clicking a tile selects exactly that tile's day. |
| `EndToEnd.ApiDownIsShown` | e2e/weather.spec.ts:46-59 | When the current endpoint answers "API down", the hook shows that message and no data, whatever the other endpoints answer. |
| `EndToEnd.CurrentOnlyAggregate` | src/services/weatherStack.ts:163-195 | With only the current endpoint answering, the aggregate is today's snapshot in a seven-day window. |
| `EndToEnd.TodaySelectedInWindow` | src/hooks/useWeather.ts:23-27 | In that window the hook selects today's tile. |
| `EndToEnd.CurrentOnlyShowsSevenTiles` | e2e/weather.spec.ts:35-37 | With only current answering, a search shows seven tiles with today's selected. |
| `EndToEnd.ResolvedSearchShowsDataOrError` | src/hooks/useWeather.ts:16-33 | A search that resolves shows exactly one of data and a non-empty error, and stops loading. |
| `EndToEnd.RejectedSearchKeepsOldData` | src/hooks/useWeather.ts:18-33 | A search that misses the cache, gets a successful current answer, and then finds the store refusing writes, leaves the earlier data and selection on screen with no error. |

## Left out

- Network and URL building (`withKey`, the access key, `URLSearchParams`). Each
  upstream answer is an input, and the request is recorded in the trace without
  its encoding.
- JSON serialisation of cache entries. It is taken as an exact round trip. A
  stored string that is not a `{expires, value}` object is `Unparseable`, and
  partially valid entries are not distinguished.
- `null` and `undefined` are both `None`. A missing location name becomes the
  text "undefined", even where JavaScript would print "null".
- A present but falsy `error` field (`""`, `0`, `false`) cannot be expressed.
  The error object is either absent or an object.
- EndToEnd.CurrentOnlyShowsSevenTiles: assumes the aggregator's clock reading (src/services/weatherStack.ts:70) and the hook's (src/hooks/useWeather.ts:23) fall on the same UTC day. Across midnight the two dates differ, and another tile may be selected.
- Date arithmetic and time zones. The calendar is a parameter, and the gap or
  overlap the UTC/local mix causes is not computed.
- `localeCompare` is modelled as code-point (character) order. It differs from UTF-16 code-unit order only above U+FFFF. For `YYYY-MM-DD` strings this
  gives the same order.
- Numbers are `real`. No arithmetic is done on them.
- Asynchrony and React scheduling. Overlapping searches whose promises settle
  out of order are not modelled, beyond `Settle` accepting any state.
- `localStorage.removeItem` failures inside `getCache` are not modelled (they
  are swallowed by its `catch`).
- The presentation components (`App.tsx`, `WeatherCard.tsx`, `DayTile.tsx`,
  `SearchBar.tsx`). They render state and hold no logic of the core.
- A JSON number, string or boolean body is modelled as a body with none of the
  fields read. For such bodies the code's `.success` and `.error` reads also
  yield nothing.
- A `null` element of an upstream `hourly` list reads like a snapshot with
  every field missing.

=== FILE: date_order.dfy ===
/**
 The order in which the aggregator sorts days: `a.date.localeCompare(b.date)`
 (src/services/weatherStack.ts:194). Dates are fixed-width `YYYY-MM-DD`
 strings of digits and hyphens, on which `localeCompare` agrees with
 code-point (character) lexicographic order, so that is the order modelled
 here.
 */
module DateOrder {

  /** `a` sorts before `b` or equals it. */
  predicate LexLe(a: string, b: string)
    decreases |a|
  {
    |a| == 0 || (|b| > 0 && (a[0] < b[0] || (a[0] == b[0] && LexLe(a[1..], b[1..]))))
  }

  predicate LexLt(a: string, b: string) {
    LexLe(a, b) && a != b
  }

  lemma {:induction false} LexLeReflexive(a: string)
    ensures LexLe(a, a)
    decreases |a|
  {
    if |a| > 0 {
      LexLeReflexive(a[1..]);
    }
  }

  lemma {:induction false} LexLeTotal(a: string, b: string)
    ensures LexLe(a, b) || LexLe(b, a)
    decreases |a|
  {
    if |a| > 0 && |b| > 0 && a[0] == b[0] {
      LexLeTotal(a[1..], b[1..]);
    }
  }

  lemma {:induction false} LexLeAntisymmetric(a: string, b: string)
    requires LexLe(a, b) && LexLe(b, a)
    ensures a == b
    decreases |a|
  {
    if |a| > 0 {
      LexLeAntisymmetric(a[1..], b[1..]);
      assert a == [a[0]] + a[1..];
      assert b == [b[0]] + b[1..];
    }
  }

  lemma {:induction false} LexLeTransitive(a: string, b: string, c: string)
    requires LexLe(a, b) && LexLe(b, c)
    ensures LexLe(a, c)
    decreases |a|
  {
    if |a| > 0 && a[0] == b[0] && b[0] == c[0] {
      LexLeTransitive(a[1..], b[1..], c[1..]);
    }
  }

  lemma LexLtTransitive(a: string, b: string, c: string)
    requires LexLt(a, b) && LexLt(b, c)
    ensures LexLt(a, c)
  {
    LexLeTransitive(a, b, c);
    if a == c {
      LexLeAntisymmetric(a, b);
    }
  }

  /** A strict predecessor is never a successor. */
  lemma LexLtNotGe(a: string, b: string)
    requires LexLt(a, b)
    ensures !LexLe(b, a)
  {
    if LexLe(b, a) {
      LexLeAntisymmetric(a, b);
    }
  }

  /** What is not at or before `b` comes strictly after it. */
  lemma NotLeIsGt(a: string, b: string)
    requires !LexLe(a, b)
    ensures LexLt(b, a)
  {
    LexLeTotal(a, b);
    LexLeReflexive(a);
  }
}

=== FILE: day_sort.dfy ===
/**
 `days.sort((a, b) => a.date.localeCompare(b.date))`
 (src/services/weatherStack.ts:194): a stable sort of the day list by date.
 Modelled as insertion sort on a sequence; the result is an ascending
 permutation of the input.
 */
module DaySort {
  import opened Types
  import opened DateOrder

  /** Every earlier day has a date at or before every later one. */
  predicate Sorted(days: seq<DaySummary>) {
    forall i, j :: 0 <= i < j < |days| ==> LexLe(days[i].date, days[j].date)
  }

  /** A day that precedes the head of a sorted list precedes all of it. */
  lemma BelowHeadBelowAll(d: DaySummary, sorted: seq<DaySummary>)
    requires Sorted(sorted) && |sorted| > 0 && LexLe(d.date, sorted[0].date)
    ensures forall x :: x in sorted ==> LexLe(d.date, x.date)
  {
    forall x | x in sorted
      ensures LexLe(d.date, x.date)
    {
      var j :| 0 <= j < |sorted| && sorted[j] == x;
      if j > 0 {
        LexLeTransitive(d.date, sorted[0].date, x.date);
      }
    }
  }

  lemma PrependSorted(d: DaySummary, sorted: seq<DaySummary>)
    requires Sorted(sorted)
    requires forall x :: x in sorted ==> LexLe(d.date, x.date)
    ensures Sorted([d] + sorted)
  {
    var r := [d] + sorted;
    forall i, j | 0 <= i < j < |r|
      ensures LexLe(r[i].date, r[j].date)
    {
      if i == 0 {
        assert r[j] in sorted;
      } else {
        assert r[i] == sorted[i - 1] && r[j] == sorted[j - 1];
      }
    }
  }

  /** Places `d` in front of the first day it does not follow, so that days
      with equal dates keep their original order. */
  function Insert(d: DaySummary, sorted: seq<DaySummary>): (r: seq<DaySummary>)
    requires Sorted(sorted)
    ensures Sorted(r)
    ensures multiset(r) == multiset(sorted) + multiset{d}
    decreases |sorted|
  {
    if sorted == [] then
      [d]
    else if LexLe(d.date, sorted[0].date) then
      BelowHeadBelowAll(d, sorted);
      PrependSorted(d, sorted);
      [d] + sorted
    else
      var head := sorted[0];
      var rest := Insert(d, sorted[1..]);
      assert sorted == [head] + sorted[1..];
      NotLeIsGt(d.date, head.date);
      assert forall x :: x in rest ==> LexLe(head.date, x.date) by {
        forall x | x in rest
          ensures LexLe(head.date, x.date)
        {
          assert x in multiset(rest);
          if x != d {
            assert x in sorted[1..];
          }
        }
      }
      PrependSorted(head, rest);
      [head] + rest
  }

  /** The days, ascending by date: a sorted permutation of the input. */
  function SortByDate(days: seq<DaySummary>): (r: seq<DaySummary>)
    ensures Sorted(r)
    ensures multiset(r) == multiset(days)
  {
    if days == [] then
      []
    else
      assert days == [days[0]] + days[1..];
      Insert(days[0], SortByDate(days[1..]))
  }

  /** A permutation covers the same dates. */
  lemma SameDaysSameDates(a: seq<DaySummary>, b: seq<DaySummary>)
    requires multiset(a) == multiset(b)
    ensures DatesOf(a) == DatesOf(b)
  {
    forall x
      ensures x in a <==> x in b
    {
      assert x in a <==> x in multiset(a);
      assert x in b <==> x in multiset(b);
    }
  }

  lemma {:induction false} InsertKeepsDistinct(d: DaySummary, sorted: seq<DaySummary>)
    requires Sorted(sorted) && NoDupDates(sorted) && d.date !in DatesOf(sorted)
    ensures NoDupDates(Insert(d, sorted))
    decreases |sorted|
  {
    if sorted == [] {
    } else if LexLe(d.date, sorted[0].date) {
      PrependDistinct(d, sorted);
    } else {
      var head := sorted[0];
      var tail := sorted[1..];
      assert sorted == [head] + tail;
      DatesOfAppend([head], tail);
      InsertKeepsDistinct(d, tail);
      var rest := Insert(d, tail);
      SameDaysSameDates(rest, tail + [d]);
      DatesOfAppend(tail, [d]);
      assert head.date !in DatesOf(tail) by {
        forall k | 0 <= k < |tail|
          ensures tail[k].date != head.date
        {
          assert sorted[k + 1] == tail[k];
        }
      }
      PrependDistinct(head, rest);
    }
  }

  /** Removing one day from a list without duplicate dates leaves a list
      without duplicates that no longer covers the removed day's date. */
  lemma RemoveAtDistinct(a: seq<DaySummary>, k: int)
    requires 0 <= k < |a| && NoDupDates(a)
    ensures var rest := a[..k] + a[k + 1..];
      && NoDupDates(rest)
      && a[k].date !in DatesOf(rest)
      && multiset(rest) + multiset{a[k]} == multiset(a)
  {
    var rest := a[..k] + a[k + 1..];
    assert forall i :: 0 <= i < |rest| ==> rest[i] == a[if i < k then i else i + 1];
    forall i | 0 <= i < |rest|
      ensures rest[i].date != a[k].date
    {
      assert rest[i] == a[if i < k then i else i + 1];
    }
    assert a == a[..k] + [a[k]] + a[k + 1..];
  }

  /** Rearranging days neither creates nor removes a duplicate date. */
  lemma {:induction false} PermutationKeepsDistinct(a: seq<DaySummary>, b: seq<DaySummary>)
    requires multiset(a) == multiset(b) && NoDupDates(a)
    ensures NoDupDates(b)
    decreases |b|
  {
    if b != [] {
      var x := b[0];
      var tail := b[1..];
      assert b == [x] + tail;
      assert x in multiset(a);
      var k :| 0 <= k < |a| && a[k] == x;
      var rest := a[..k] + a[k + 1..];
      RemoveAtDistinct(a, k);
      assert multiset(b) == multiset{x} + multiset(tail);
      assert multiset(rest) == multiset(a) - multiset{x};
      assert multiset(tail) == multiset(b) - multiset{x};
      PermutationKeepsDistinct(rest, tail);
      SameDaysSameDates(rest, tail);
      PrependDistinct(x, tail);
    }
  }

  /** Sorting neither creates nor removes a duplicate date. */
  lemma SortKeepsDistinct(days: seq<DaySummary>)
    ensures NoDupDates(SortByDate(days)) <==> NoDupDates(days)
  {
    var r := SortByDate(days);
    if NoDupDates(days) {
      PermutationKeepsDistinct(days, r);
    }
    if NoDupDates(r) {
      PermutationKeepsDistinct(r, days);
    }
  }

  /** The days with the given date, in list order. */
  function WithDate(days: seq<DaySummary>, date: string): seq<DaySummary> {
    if days == [] then []
    else (if days[0].date == date then [days[0]] else []) + WithDate(days[1..], date)
  }

  lemma WithDateCons(h: DaySummary, xs: seq<DaySummary>, date: string)
    ensures WithDate([h] + xs, date) == (if h.date == date then [h] else []) + WithDate(xs, date)
  {
    assert ([h] + xs)[1..] == xs;
  }

  /** Inserting a day puts it ahead of every day that has its date. */
  lemma {:induction false} InsertFirstOfItsDate(d: DaySummary, sorted: seq<DaySummary>, date: string)
    requires Sorted(sorted)
    ensures WithDate(Insert(d, sorted), date) == (if d.date == date then [d] else []) + WithDate(sorted, date)
    decreases |sorted|
  {
    if sorted == [] {
      WithDateCons(d, [], date);
    } else if LexLe(d.date, sorted[0].date) {
      WithDateCons(d, sorted, date);
    } else {
      var head := sorted[0];
      var tail := sorted[1..];
      assert sorted == [head] + tail;
      LexLeReflexive(d.date);
      assert head.date != d.date;
      var rest := Insert(d, tail);
      assert Insert(d, sorted) == [head] + rest;
      InsertFirstOfItsDate(d, tail, date);
      WithDateCons(head, rest, date);
      WithDateCons(head, tail, date);
    }
  }

  /** The sort is stable: days that share a date keep their input order. */
  lemma {:induction false} SortIsStable(days: seq<DaySummary>, date: string)
    ensures WithDate(SortByDate(days), date) == WithDate(days, date)
  {
    if days != [] {
      SortIsStable(days[1..], date);
      InsertFirstOfItsDate(days[0], SortByDate(days[1..]), date);
    }
  }

  /** Sorting an already ascending list leaves it as it is. */
  lemma {:induction false} SortedInputUnchanged(days: seq<DaySummary>)
    requires Sorted(days)
    ensures SortByDate(days) == days
  {
    if days != [] {
      var tail := days[1..];
      assert Sorted(tail) by {
        forall i, j | 0 <= i < j < |tail|
          ensures LexLe(tail[i].date, tail[j].date)
        {
          assert tail[i] == days[i + 1] && tail[j] == days[j + 1];
        }
      }
      SortedInputUnchanged(tail);
      assert days == [days[0]] + tail;
    }
  }

  /** Strictly ascending neighbours make a strictly ascending list. */
  lemma {:induction false} StrictChain(days: seq<DaySummary>)
    requires forall i :: 0 <= i < |days| - 1 ==> LexLt(days[i].date, days[i + 1].date)
    ensures forall i, j :: 0 <= i < j < |days| ==> LexLt(days[i].date, days[j].date)
    ensures Sorted(days) && NoDupDates(days)
  {
    if |days| > 1 {
      var tail := days[1..];
      assert forall i :: 0 <= i < |tail| - 1 ==> LexLt(tail[i].date, tail[i + 1].date) by {
        forall i | 0 <= i < |tail| - 1
          ensures LexLt(tail[i].date, tail[i + 1].date)
        {
          assert tail[i] == days[i + 1] && tail[i + 1] == days[i + 2];
        }
      }
      StrictChain(tail);
      forall i, j | 0 <= i < j < |days|
        ensures LexLt(days[i].date, days[j].date)
      {
        if i == 0 && j > 1 {
          assert days[1] == tail[0] && days[j] == tail[j - 1];
          LexLtTransitive(days[0].date, days[1].date, days[j].date);
        } else if i > 0 {
          assert days[i] == tail[i - 1] && days[j] == tail[j - 1];
        }
      }
    }
  }
}

=== FILE: end_to_end.dfy ===
/**
 The hook and the lookup together: the scenarios of the browser tests
 (e2e/weather.spec.ts), stated for every store, clock and calendar that
 meet their conditions.
 */
module EndToEnd {
  import opened Types
  import opened DateOrder
  import opened DaySort
  import opened SubCall
  import opened TtlCache
  import opened Pipeline
  import opened MergeProperties
  import opened WeatherStack
  import opened UseWeather

  /** The body the test's intercepted `/current` route returns. */
  const ApiDown: Weather := Weather(None, None, None, None, Some(ApiError(Some("API down"))), Some(false))

  /** The state after a search: the effect runs for the state's query (as it
      does once `SetQuery` has changed the query), and the lookup it starts
      settles. */
  function Search(s: HookState, store: Store<CombinedWeather>, env: Env, today: string, responses: Responses): HookState
    requires s.query != ""
  {
    var step := RunEffect(s);
    Settle(step.state, today, FetchCombined(store, env, step.fetched.value, responses).completion)
  }

  /** When the current endpoint reports "API down", the hook shows that
      message and no data, whatever the other endpoints answer. */
  lemma ApiDownIsShown(s: HookState, store: Store<CombinedWeather>, env: Env, today: string, responses: Responses)
    requires s.query != ""
    requires !CachedAt(store, env.readMs, s.query)
    requires responses.current == Parsed(Object(ApiDown))
    ensures var t := Search(s, store, env, today, responses);
      t.error == Some("API down") && t.data.None? && !t.loading
  {
    CurrentFailureSurfaces(store, env, s.query, responses);
  }

  /** With only the current endpoint answering, the aggregate is the seven-day
      window around today's snapshot. */
  lemma CurrentOnlyAggregate(query: string, responses: Responses, cal: Calendar, w: Weather)
    requires responses.current == Parsed(Object(w)) && !ReportsError(w) && w.current.Some?
    requires Classify(responses.historical).Failure? && Classify(responses.forecast).Failure?
    requires ChronologicalWindow(cal)
    ensures Aggregate(query, responses, cal)
         == Success(CombinedWeather(LocationLabel(Success(w), query), w.current, Window(w.current.value, cal)))
  {
    var cur := Classify(responses.current);
    assert cur == Success(w);
    SevenDayWindow(query, cur, Classify(responses.historical), Classify(responses.forecast), cal);
  }

  /** In that window, today's tile is found by its date. */
  lemma TodaySelectedInWindow(c: CurrentWeather, cal: Calendar, s: HookState, data: CombinedWeather)
    requires ChronologicalWindow(cal) && data.days == Window(c, cal)
    ensures var t := Settle(s, cal.today, Resolved(Success(data)));
      t.data == Some(data) && Selected(t) == Some(TodayDay(c, cal.today))
  {
    var days := Window(c, cal);
    assert days[3] == TodayDay(c, cal.today);
    assert days[3] in days;
    assert LexLt(days[2].date, days[3].date);
    assert cal.today != "";
    StrictChain(days);
    var t := Settle(s, cal.today, Resolved(Success(data)));
    var r := Selected(t).value;
    assert forall i :: 0 <= i < |days| && days[i].date == cal.today ==> i == 3;
  }

  /** With only the current endpoint answering, the card shows seven day
      tiles, and today's tile, read off the snapshot, is selected. The hook's
      today is taken to be the calendar's today: the aggregator and the hook
      each read the clock (src/services/weatherStack.ts:70 and
      src/hooks/useWeather.ts:23), and this holds only when both readings fall
      on the same UTC day. Across midnight the hook's date is a later tile's
      date, or none of them, and that tile or the middle one is selected. */
  lemma CurrentOnlyShowsSevenTiles(s: HookState, store: Store<CombinedWeather>, env: Env, responses: Responses, w: Weather)
    requires s.query != "" && store.acceptsWrites
    requires !CachedAt(store, env.readMs, s.query)
    requires responses.current == Parsed(Object(w)) && !ReportsError(w) && w.current.Some?
    requires Classify(responses.historical).Failure? && Classify(responses.forecast).Failure?
    requires ChronologicalWindow(env.cal)
    ensures var t := Search(s, store, env, env.cal.today, responses);
      && t.data.Some? && |t.data.value.days| == 7
      && Selected(t) == Some(TodayDay(w.current.value, env.cal.today))
  {
    CurrentOnlyAggregate(s.query, responses, env.cal, w);
    var data := Aggregate(s.query, responses, env.cal).data;
    var l := FetchCombined(store, env, s.query, responses);
    assert l.completion == Resolved(Success(data));
    TodaySelectedInWindow(w.current.value, env.cal, RunEffect(s).state, data);
  }

  /** A search that resolves shows exactly one of data and an error message,
      and stops loading. */
  lemma ResolvedSearchShowsDataOrError(s: HookState, store: Store<CombinedWeather>, env: Env, today: string, responses: Responses)
    requires s.query != ""
    requires FetchCombined(store, env, s.query, responses).completion.Resolved?
    ensures var t := Search(s, store, env, today, responses);
      && !t.loading
      && (t.data.Some? <==> t.error.None?)
      && (t.error.Some? ==> t.error.value != "")
  {
    var l := FetchCombined(store, env, s.query, responses);
    if !CachedAt(store, env.readMs, s.query) && l.completion.result.Failure? {
      assert Aggregate(s.query, responses, env.cal) == l.completion.result;
    }
  }

  /** A search whose cache write throws leaves the hook as it was before the
      search, apart from loading and the cleared error: data and selection
      from an earlier query stay on screen, with no message. */
  lemma RejectedSearchKeepsOldData(s: HookState, store: Store<CombinedWeather>, env: Env, today: string, responses: Responses)
    requires s.query != "" && !store.acceptsWrites
    requires !CachedAt(store, env.readMs, s.query)
    requires Classify(responses.current).Success?
    ensures Search(s, store, env, today, responses) == s.(loading := false, error := None)
  {
  }
}

=== FILE: merge_properties.dfy ===
/**
 What the merge pipeline of `fetchCombined` guarantees
 (src/services/weatherStack.ts:100-195), stated over all sub-call outcomes.
 */
module MergeProperties {
  import opened Types
  import opened DateOrder
  import opened DaySort
  import opened Pipeline

  /** The calendar's seven window dates are strictly ascending: the three days
      before today, today, and the three days after. With one consistent day
      numbering, fixed-width `YYYY-MM-DD` strings have this property. */
  predicate ChronologicalWindow(cal: Calendar) {
    && LexLt(cal.dayAt(-3), cal.dayAt(-2))
    && LexLt(cal.dayAt(-2), cal.dayAt(-1))
    && LexLt(cal.dayAt(-1), cal.today)
    && LexLt(cal.today, cal.dayAt(1))
    && LexLt(cal.dayAt(1), cal.dayAt(2))
    && LexLt(cal.dayAt(2), cal.dayAt(3))
  }

  /** Once the current sub-call has failed, the result is that failure,
      whatever the historical and forecast sub-calls returned. */
  lemma CurrentFailureDecides(query: string, cur: FetchResult<Weather>,
                              hist: FetchResult<Weather>, fc: FetchResult<Weather>,
                              hist': FetchResult<Weather>, fc': FetchResult<Weather>, cal: Calendar)
    requires cur.Failure?
    ensures Merge(query, cur, hist, fc, cal) == Merge(query, cur, hist', fc', cal)
    ensures Merge(query, cur, hist, fc, cal) == Failure(if cur.error != "" then cur.error else "Current weather API failed")
  {
  }

  /** Every day of a successful result has a distinct date, provided the
      historical record does not already hold today's date. The forecast and
      placeholder steps skip dates already present; today's step does not. */
  lemma DistinctDates(query: string, cur: FetchResult<Weather>, hist: FetchResult<Weather>,
                      fc: FetchResult<Weather>, cal: Calendar)
    requires hist.Success? && hist.data.historical.Some? ==> DistinctKeys(hist.data.historical.value)
    requires Snapshot(cur).Some? ==> cal.today !in DatesOf(HistoryDays(hist))
    ensures var r := Merge(query, cur, hist, fc, cal);
      r.Success? ==> Sorted(r.data.days) && NoDupDates(r.data.days)
  {
    var h := HistoryDays(hist);
    if hist.Success? && hist.data.historical.Some? {
      NormaliseRecordDates(hist.data.historical.value);
    }
    var base := h + TodayDays(cur, cal.today);
    if Snapshot(cur).Some? {
      AppendDistinct(h, TodayDay(Snapshot(cur).value, cal.today));
    } else {
      assert base == h;
    }
    var collected := CollectDays(cur, hist, fc, cal.today);
    AppendAbsentKeepsDistinct(base, ForecastDays(fc));
    AppendAbsentKeepsDistinct(collected, Placeholders(Snapshot(cur), cal));
    SortKeepsDistinct(MergedDays(cur, hist, fc, cal));
  }

  /** A day with a given date appears in a sorted result exactly when it
      appears among the merged days. */
  lemma SortedMembership(query: string, cur: FetchResult<Weather>, hist: FetchResult<Weather>,
                         fc: FetchResult<Weather>, cal: Calendar, x: DaySummary)
    requires cur.Success?
    ensures x in Merge(query, cur, hist, fc, cal).data.days <==> x in MergedDays(cur, hist, fc, cal)
  {
    var r := Merge(query, cur, hist, fc, cal);
    assert x in r.data.days <==> x in multiset(r.data.days);
  }

  /** Today's day is the one read off the current snapshot: a forecast day or
      a placeholder for the same date never replaces it. */
  lemma TodayFromSnapshot(query: string, cur: FetchResult<Weather>, hist: FetchResult<Weather>,
                          fc: FetchResult<Weather>, cal: Calendar)
    requires Snapshot(cur).Some?
    requires cal.today !in DatesOf(HistoryDays(hist))
    ensures var r := Merge(query, cur, hist, fc, cal);
      && r.Success?
      && TodayDay(Snapshot(cur).value, cal.today) in r.data.days
      && forall x :: x in r.data.days && x.date == cal.today ==> x == TodayDay(Snapshot(cur).value, cal.today)
  {
    var t := TodayDay(Snapshot(cur).value, cal.today);
    var h := HistoryDays(hist);
    var base := h + [t];
    assert base[|h|] == t;
    DatesOfAppend(h, [t]);
    var collected := CollectDays(cur, hist, fc, cal.today);
    AppendAbsentContents(base, ForecastDays(fc));
    assert collected[|h|] == t;
    var merged := MergedDays(cur, hist, fc, cal);
    AppendAbsentContents(collected, Placeholders(Snapshot(cur), cal));
    assert merged[|h|] == t;
    SortedMembership(query, cur, hist, fc, cal, t);
    forall x | x in Merge(query, cur, hist, fc, cal).data.days && x.date == cal.today
      ensures x == t
    {
      SortedMembership(query, cur, hist, fc, cal, x);
      assert x in collected;
      assert x in base;
      assert x !in h;
    }
  }

  /** Placeholders copy the snapshot: when its numeric readings are all
      present, a placeholder is today's day moved to another date. */
  lemma PlaceholderCopiesSnapshot(c: CurrentWeather, date: string)
    requires c.temperature.Some? && c.precip.Some? && c.windSpeed.Some? && c.pressure.Some?
    ensures Placeholder(Some(c), date) == TodayDay(c, date)
  {
  }

  /** Without a snapshot, placeholders carry zeros and no text. */
  lemma PlaceholdersWithoutSnapshot(query: string, cur: FetchResult<Weather>, hist: FetchResult<Weather>,
                                    fc: FetchResult<Weather>, cal: Calendar)
    requires cur.Success? && cur.data.current.None?
    requires |CollectDays(cur, hist, fc, cal.today)| == 1
    ensures var r := Merge(query, cur, hist, fc, cal);
      && r.Success?
      && forall x :: x in r.data.days && x !in CollectDays(cur, hist, fc, cal.today) ==>
           x == DaySummary(x.date, Some(0.0), Some(0.0), None, None, Some(0.0), Some(0.0), None)
  {
    var collected := CollectDays(cur, hist, fc, cal.today);
    var ps := Placeholders(None, cal);
    AppendAbsentContents(collected, ps);
    forall x | x in Merge(query, cur, hist, fc, cal).data.days && x !in collected
      ensures x == DaySummary(x.date, Some(0.0), Some(0.0), None, None, Some(0.0), Some(0.0), None)
    {
      SortedMembership(query, cur, hist, fc, cal, x);
      var i :| 0 <= i < |ps| && ps[i] == x;
    }
  }

  /** The placeholder dates are the calendar's dates at the six offsets. */
  lemma PlaceholderDates(c: Option<CurrentWeather>, cal: Calendar)
    ensures DatesOf(Placeholders(c, cal)) == set k | k in PlaceholderOffsets :: cal.dayAt(k)
  {
    var ps := Placeholders(c, cal);
    forall k | k in PlaceholderOffsets
      ensures cal.dayAt(k) in DatesOf(ps)
    {
      var i :| 0 <= i < |PlaceholderOffsets| && PlaceholderOffsets[i] == k;
      assert ps[i] in ps;
    }
  }

  /** When exactly one day was collected, synthesis adds the dates at the six
      offsets from today and no other: the result covers the collected date
      together with those dates, each offset skipped when its date is already
      present. */
  lemma SynthesisDates(query: string, cur: FetchResult<Weather>, hist: FetchResult<Weather>,
                       fc: FetchResult<Weather>, cal: Calendar)
    requires cur.Success?
    requires |CollectDays(cur, hist, fc, cal.today)| == 1
    ensures DatesOf(Merge(query, cur, hist, fc, cal).data.days)
         == DatesOf(CollectDays(cur, hist, fc, cal.today)) + set k | k in PlaceholderOffsets :: cal.dayAt(k)
  {
    var collected := CollectDays(cur, hist, fc, cal.today);
    AppendAbsentDates(collected, Placeholders(Snapshot(cur), cal));
    PlaceholderDates(Snapshot(cur), cal);
    var r := Merge(query, cur, hist, fc, cal);
    SameDaysSameDates(r.data.days, MergedDays(cur, hist, fc, cal));
  }

  /** When exactly one day was collected, every added day is the placeholder
      for its own date, built from the current snapshot (or from nothing when
      there is none). */
  lemma SynthesisFromSnapshot(query: string, cur: FetchResult<Weather>, hist: FetchResult<Weather>,
                              fc: FetchResult<Weather>, cal: Calendar)
    requires cur.Success?
    requires |CollectDays(cur, hist, fc, cal.today)| == 1
    ensures var r := Merge(query, cur, hist, fc, cal);
      forall x :: x in r.data.days && x !in CollectDays(cur, hist, fc, cal.today) ==>
        x == Placeholder(Snapshot(cur), x.date)
  {
    var collected := CollectDays(cur, hist, fc, cal.today);
    var ps := Placeholders(Snapshot(cur), cal);
    AppendAbsentOrigin(collected, ps);
    forall x | x in Merge(query, cur, hist, fc, cal).data.days && x !in collected
      ensures x == Placeholder(Snapshot(cur), x.date)
    {
      SortedMembership(query, cur, hist, fc, cal, x);
      var i :| 0 <= i < |ps| && ps[i] == x;
    }
  }

  /** The merged days start with the historical days and today's day: the
      later steps only append. */
  lemma MergedKeepsBase(cur: FetchResult<Weather>, hist: FetchResult<Weather>, fc: FetchResult<Weather>, cal: Calendar)
    ensures var base := HistoryDays(hist) + TodayDays(cur, cal.today);
      var merged := MergedDays(cur, hist, fc, cal);
      |base| <= |merged| && merged[..|base|] == base
  {
    var base := HistoryDays(hist) + TodayDays(cur, cal.today);
    var collected := CollectDays(cur, hist, fc, cal.today);
    var merged := MergedDays(cur, hist, fc, cal);
    assert collected[..|base|] == base;
    assert merged[..|collected|] == collected;
    assert merged[..|base|] == collected[..|base|];
  }

  /** Today's entry is pushed without looking at the history days: when
      history already holds today's date, the result has two days with that
      date. */
  lemma DuplicateTodayWhenHistoryHasIt(query: string, cur: FetchResult<Weather>, hist: FetchResult<Weather>,
                                       fc: FetchResult<Weather>, cal: Calendar)
    requires Snapshot(cur).Some?
    requires cal.today in DatesOf(HistoryDays(hist))
    ensures var r := Merge(query, cur, hist, fc, cal);
      r.Success? && !NoDupDates(r.data.days)
  {
    var h := HistoryDays(hist);
    var base := h + TodayDays(cur, cal.today);
    var merged := MergedDays(cur, hist, fc, cal);
    MergedKeepsBase(cur, hist, fc, cal);
    var d :| d in h && d.date == cal.today;
    var p :| 0 <= p < |h| && h[p] == d;
    assert merged[p] == base[p] == d by {
      assert merged[..|base|][p] == merged[p];
    }
    assert merged[|h|] == base[|h|] && base[|h|].date == cal.today by {
      assert merged[..|base|][|h|] == merged[|h|];
    }
    SortKeepsDistinct(merged);
  }

  /** Placeholders are added only when exactly one day was collected,
      whichever sub-calls failed. */
  lemma PlaceholdersOnlyForOneDay(query: string, cur: FetchResult<Weather>, hist: FetchResult<Weather>,
                                  fc: FetchResult<Weather>, cal: Calendar)
    requires cur.Success?
    requires |CollectDays(cur, hist, fc, cal.today)| != 1
    ensures multiset(Merge(query, cur, hist, fc, cal).data.days) == multiset(CollectDays(cur, hist, fc, cal.today))
  {
  }

  /** When history and forecast bring only new, distinct dates and at least
      one day between them, nothing is synthesised: the result is the
      historical days, today and the forecast days, rearranged by date. */
  lemma NoPlaceholdersWhenCovered(query: string, cur: FetchResult<Weather>, hist: FetchResult<Weather>,
                                  fc: FetchResult<Weather>, cal: Calendar)
    requires Snapshot(cur).Some?
    requires NoDupDates(HistoryDays(hist)) && NoDupDates(ForecastDays(fc))
    requires cal.today !in DatesOf(HistoryDays(hist))
    requires DatesOf(ForecastDays(fc)) !! DatesOf(HistoryDays(hist)) + {cal.today}
    requires |HistoryDays(hist)| + |ForecastDays(fc)| > 0
    ensures var r := Merge(query, cur, hist, fc, cal);
      && r.Success?
      && multiset(r.data.days) == multiset(HistoryDays(hist) + [TodayDay(Snapshot(cur).value, cal.today)] + ForecastDays(fc))
      && |r.data.days| == |HistoryDays(hist)| + 1 + |ForecastDays(fc)|
  {
    var h := HistoryDays(hist);
    var t := TodayDay(Snapshot(cur).value, cal.today);
    DatesOfAppend(h, [t]);
    AppendAbsentAllNew(h + [t], ForecastDays(fc));
    var r := Merge(query, cur, hist, fc, cal);
    assert |r.data.days| == |multiset(r.data.days)|;
  }

  /** The seven placeholder-window days, in calendar order. */
  function Window(c: CurrentWeather, cal: Calendar): seq<DaySummary> {
    [Placeholder(Some(c), cal.dayAt(-3)), Placeholder(Some(c), cal.dayAt(-2)), Placeholder(Some(c), cal.dayAt(-1)),
     TodayDay(c, cal.today),
     Placeholder(Some(c), cal.dayAt(1)), Placeholder(Some(c), cal.dayAt(2)), Placeholder(Some(c), cal.dayAt(3))]
  }

  /** The six placeholders, in offset order, are ascending, distinct, and
      avoid today's date; today sorts between the third and the fourth. */
  lemma WindowFacts(c: CurrentWeather, cal: Calendar)
    requires ChronologicalWindow(cal)
    ensures var ps := Placeholders(Some(c), cal);
      var t := TodayDay(c, cal.today);
      var w := Window(c, cal);
      && |w| == 7 && w[3] == t
      && ps == [w[0], w[1], w[2], w[4], w[5], w[6]]
      && Sorted(ps) && NoDupDates(ps) && t.date !in DatesOf(ps)
      && !LexLe(t.date, ps[0].date) && !LexLe(t.date, ps[1].date) && !LexLe(t.date, ps[2].date)
      && LexLe(t.date, ps[3].date)
  {
    var ps := Placeholders(Some(c), cal);
    var t := TodayDay(c, cal.today);
    var w := Window(c, cal);
    StrictChain(w);
    assert ps == [w[0], w[1], w[2], w[4], w[5], w[6]];
    forall i, j | 0 <= i < j < |ps|
      ensures LexLt(ps[i].date, ps[j].date)
    {
      var i' := if i < 3 then i else i + 1;
      var j' := if j < 3 then j else j + 1;
      assert ps[i] == w[i'] && ps[j] == w[j'];
    }
    assert w[3] == t;
    forall k | 0 <= k < |ps|
      ensures ps[k].date != t.date
    {
      var k' := if k < 3 then k else k + 1;
      assert ps[k] == w[k'];
    }
    LexLtNotGe(w[0].date, t.date);
    LexLtNotGe(w[1].date, t.date);
    LexLtNotGe(w[2].date, t.date);
  }

  /** A day that follows the first three of six sorted days, and precedes
      the fourth, is inserted between them. */
  lemma InsertAfterThree(t: DaySummary, ps: seq<DaySummary>)
    requires Sorted(ps) && |ps| == 6
    requires !LexLe(t.date, ps[0].date) && !LexLe(t.date, ps[1].date) && !LexLe(t.date, ps[2].date)
    requires LexLe(t.date, ps[3].date)
    ensures Insert(t, ps) == ps[..3] + [t] + ps[3..]
  {
    assert Insert(t, ps) == [ps[0]] + Insert(t, ps[1..]);
    assert Insert(t, ps[1..]) == [ps[1]] + Insert(t, ps[2..]);
    assert Insert(t, ps[2..]) == [ps[2]] + Insert(t, ps[3..]);
    assert Insert(t, ps[3..]) == [t] + ps[3..];
  }

  /** Putting the middle day back between the first three and the last three
      of six restores the seven. */
  lemma Reassemble(w: seq<DaySummary>, ps: seq<DaySummary>)
    requires |w| == 7 && ps == [w[0], w[1], w[2], w[4], w[5], w[6]]
    ensures ps[..3] + [w[3]] + ps[3..] == w
  {
  }

  /** Sorting today followed by the six placeholders yields the window in
      calendar order. */
  lemma WindowSortsIntoPlace(c: CurrentWeather, cal: Calendar)
    requires ChronologicalWindow(cal)
    ensures SortByDate([TodayDay(c, cal.today)] + Placeholders(Some(c), cal)) == Window(c, cal)
  {
    var ps := Placeholders(Some(c), cal);
    var t := TodayDay(c, cal.today);
    WindowFacts(c, cal);
    SortedInputUnchanged(ps);
    assert ([t] + ps)[1..] == ps;
    assert SortByDate([t] + ps) == Insert(t, ps);
    InsertAfterThree(t, ps);
    Reassemble(Window(c, cal), ps);
  }

  /** With a snapshot but no historical day and no forecast day other than
      today, the result is today plus six placeholders: seven days, from three
      days back to three days ahead. */
  lemma SevenDayWindow(query: string, cur: FetchResult<Weather>, hist: FetchResult<Weather>,
                       fc: FetchResult<Weather>, cal: Calendar)
    requires Snapshot(cur).Some?
    requires HistoryDays(hist) == []
    requires DatesOf(ForecastDays(fc)) <= {cal.today}
    requires ChronologicalWindow(cal)
    ensures Merge(query, cur, hist, fc, cal)
         == Success(CombinedWeather(LocationLabel(cur, query), Snapshot(cur), Window(Snapshot(cur).value, cal)))
  {
    var c := Snapshot(cur).value;
    var t := TodayDay(c, cal.today);
    assert HistoryDays(hist) + TodayDays(cur, cal.today) == [t];
    AppendAbsentNothingNew([t], ForecastDays(fc));
    assert CollectDays(cur, hist, fc, cal.today) == [t];
    WindowFacts(c, cal);
    AppendAbsentAllNew([t], Placeholders(Some(c), cal));
    assert MergedDays(cur, hist, fc, cal) == [t] + Placeholders(Some(c), cal);
    WindowSortsIntoPlace(c, cal);
  }

  /** The location label: name, `, region` when there is a region, then the
      template literal's line break and indentation, then `, country` when
      there is a country. Wellington has no region. */
  lemma WellingtonLabel(query: string)
    ensures LocationLabel(Success(Weather(Some(Location(Some("Wellington"), Some("New Zealand"), Some(""))),
                                          None, None, None, None, None)), query)
         == "Wellington\n    , New Zealand"
  {
  }

  /** The label, read left to right: the city's name; `, region` exactly
      when the region is non-empty (so the character after the name is a
      comma exactly then); the line break; and `, country` exactly when the
      country is non-empty, the label otherwise ending with the line break. */
  lemma LabelSegments(cur: FetchResult<Weather>, query: string, name: string)
    requires cur.Success? && cur.data.location.Some? && cur.data.location.value.name == Some(name)
    ensures var loc := cur.data.location.value;
      var text := LocationLabel(cur, query);
      var hasRegion := loc.region.Some? && loc.region.value != "";
      var hasCountry := loc.country.Some? && loc.country.value != "";
      var k := |name| + (if hasRegion then 2 + |loc.region.value| else 0);
      && |text| == k + |LineBreak| + (if hasCountry then 2 + |loc.country.value| else 0)
      && text[..|name|] == name
      && (hasRegion <==> text[|name|] == ',')
      && (hasRegion ==> text[|name|..k] == ", " + loc.region.value)
      && text[k..k + |LineBreak|] == LineBreak
      && (hasCountry ==> text[k + |LineBreak|..] == ", " + loc.country.value)
      && (!hasCountry ==> text[|text| - |LineBreak|..] == LineBreak)
  {
    var loc := cur.data.location.value;
    var text := LocationLabel(cur, query);
    var r := Segment(loc.region);
    var c := Segment(loc.country);
    assert text == name + r + LineBreak + c;
    var k := |name| + |r|;
    assert text[..|name|] == name;
    assert text[|name|..k] == r;
    assert text[k..k + |LineBreak|] == LineBreak;
    assert text[k + |LineBreak|..] == c;
    if r != "" {
      assert text[|name|] == r[0];
    } else {
      assert text[|name|] == LineBreak[0];
    }
  }

  /** Without a successful current sub-call that names a location, the label
      is the query as typed. */
  lemma LabelFallsBackToQuery(cur: FetchResult<Weather>, query: string)
    requires cur.Failure? || cur.data.location.None?
    ensures LocationLabel(cur, query) == query
  {
  }
}

=== FILE: pipeline.dfy ===
/**
 The merge pipeline of `fetchCombined` (src/services/weatherStack.ts:100-195):
 from the three classified sub-call outcomes to one `CombinedWeather`.

 Steps, in source order: normalise the historical day records; add today
 from the current snapshot; add forecast days whose date is not yet present;
 fail if the current sub-call failed; when exactly one day is present, add
 placeholder days around today; build the location label; sort by date.

 Dates are not computed here. A `Calendar` supplies the string the source
 gets from `fmtDate(new Date())` and the strings it gets from `fmtDate` of
 the local midnight `n` days before or after today.
 */
module Pipeline {
  import opened Types
  import opened DateOrder
  import opened DaySort

  datatype Calendar = Calendar(today: string, dayAt: int -> string)

  /** The hourly snapshot taken as representative of a day (local midday). */
  const MiddayIndex: nat := 12

  const CurrentFailedMessage := "Current weather API failed"

  /** Day offsets of the placeholder days, in the order they are tried. */
  const PlaceholderOffsets: seq<int> := [-3, -2, -1, 1, 2, 3]

  /** `xs?.[i]` */
  function At<T>(xs: seq<T>, i: nat): Option<T> {
    if i < |xs| then Some(xs[i]) else None
  }

  /** `list?.[0]` */
  function FirstOf(xs: Option<seq<string>>): Option<string> {
    match xs
    case None => None
    case Some(s) => At(s, 0)
  }

  /** `v?.hourly?.[12]` */
  function Midday(v: DaySummary): Option<CurrentWeather> {
    match v.hourly
    case None => None
    case Some(hs) => At(hs, MiddayIndex)
  }

  /** One historical or forecast record as a day (lines 106-114 and 137-145). */
  function NormaliseDay(date: string, v: DaySummary): (d: DaySummary)
    ensures d.date == date && d.hourly.None?
    ensures d.avgtemp.Some? && d.precip.Some? && d.description.Some? && d.icon.Some? && d.wind.Some? && d.pressure.Some?
    ensures d.avgtemp.value == (if v.avgtemp.Some? then v.avgtemp.value else 0.0)
    ensures Midday(v).None? ==>
      d.precip.value == 0.0 && d.wind.value == 0.0 && d.pressure.value == 0.0 && d.description.value == "" && d.icon.value == ""
    ensures Midday(v).Some? ==>
      var h := Midday(v).value;
      && d.precip.value == (if h.precip.Some? then h.precip.value else 0.0)
      && d.wind.value == (if h.windSpeed.Some? then h.windSpeed.value else 0.0)
      && d.pressure.value == (if h.pressure.Some? then h.pressure.value else 0.0)
      && (d.description.value == "" <==> h.weatherDescriptions.None? || |h.weatherDescriptions.value| == 0 || h.weatherDescriptions.value[0] == "")
      && (d.description.value != "" ==> d.description.value == h.weatherDescriptions.value[0])
      && (d.icon.value == "" <==> h.weatherIcons.None? || |h.weatherIcons.value| == 0 || h.weatherIcons.value[0] == "")
      && (d.icon.value != "" ==> d.icon.value == h.weatherIcons.value[0])
  {
    var h := Midday(v);
    var precip := if h.Some? then h.value.precip else None;
    var descriptions := if h.Some? then h.value.weatherDescriptions else None;
    var icons := if h.Some? then h.value.weatherIcons else None;
    var wind := if h.Some? then h.value.windSpeed else None;
    var pressure := if h.Some? then h.value.pressure else None;
    DaySummary(
      date,
      Some(v.avgtemp.GetOr(0.0)),
      Some(precip.GetOr(0.0)),
      Some(FirstOf(descriptions).GetOr("")),
      Some(FirstOf(icons).GetOr("")),
      Some(wind.GetOr(0.0)),
      Some(pressure.GetOr(0.0)),
      None)
  }

  /** Every entry of a day record object, in `Object.entries` order. */
  function NormaliseRecord(es: seq<Entry>): (days: seq<DaySummary>)
    ensures |days| == |es|
    ensures forall i :: 0 <= i < |es| ==> days[i] == NormaliseDay(es[i].key, es[i].value)
  {
    seq(|es|, i requires 0 <= i < |es| => NormaliseDay(es[i].key, es[i].value))
  }

  lemma NormaliseRecordDates(es: seq<Entry>)
    ensures DatesOf(NormaliseRecord(es)) == KeysOf(es)
    ensures DistinctKeys(es) ==> NoDupDates(NormaliseRecord(es))
  {
    var days := NormaliseRecord(es);
    forall date | date in KeysOf(es)
      ensures date in DatesOf(days)
    {
      var i :| 0 <= i < |es| && es[i].key == date;
      assert days[i] in days;
    }
  }

  /** Days from the historical sub-call (lines 103-116). */
  function HistoryDays(hist: FetchResult<Weather>): seq<DaySummary> {
    if hist.Success? && hist.data.historical.Some? then NormaliseRecord(hist.data.historical.value) else []
  }

  /** Candidate days from the forecast sub-call (lines 133-148). */
  function ForecastDays(fc: FetchResult<Weather>): seq<DaySummary> {
    if fc.Success? && fc.data.forecast.Some? then NormaliseRecord(fc.data.forecast.value) else []
  }

  /** `cur.ok ? cur.data?.current ?? null : null` */
  function Snapshot(cur: FetchResult<Weather>): Option<CurrentWeather> {
    if cur.Success? then cur.data.current else None
  }

  /** Today's day, read straight off the current snapshot (lines 121-129):
      no defaults, so a missing field stays missing. */
  function TodayDay(c: CurrentWeather, date: string): DaySummary {
    DaySummary(date, c.temperature, c.precip, FirstOf(c.weatherDescriptions), FirstOf(c.weatherIcons),
               c.windSpeed, c.pressure, None)
  }

  function TodayDays(cur: FetchResult<Weather>, today: string): seq<DaySummary> {
    match Snapshot(cur)
    case None => []
    case Some(c) => [TodayDay(c, today)]
  }

  /** A placeholder day (lines 166-174): the current snapshot's readings,
      numbers defaulting to 0 and texts left missing. */
  function Placeholder(c: Option<CurrentWeather>, date: string): DaySummary {
    match c
    case None => DaySummary(date, Some(0.0), Some(0.0), None, None, Some(0.0), Some(0.0), None)
    case Some(w) =>
      DaySummary(date, Some(w.temperature.GetOr(0.0)), Some(w.precip.GetOr(0.0)),
                 FirstOf(w.weatherDescriptions), FirstOf(w.weatherIcons),
                 Some(w.windSpeed.GetOr(0.0)), Some(w.pressure.GetOr(0.0)), None)
  }

  function Placeholders(c: Option<CurrentWeather>, cal: Calendar): (ps: seq<DaySummary>)
    ensures |ps| == |PlaceholderOffsets|
    ensures forall i :: 0 <= i < |ps| ==> ps[i] == Placeholder(c, cal.dayAt(PlaceholderOffsets[i]))
  {
    seq(|PlaceholderOffsets|, i requires 0 <= i < |PlaceholderOffsets| => Placeholder(c, cal.dayAt(PlaceholderOffsets[i])))
  }

  /** Pushes each candidate, in order, unless a day with its date is already
      present (`if (!days.some((day) => day.date === date)) days.push(...)`). */
  function AppendAbsent(days: seq<DaySummary>, cands: seq<DaySummary>): (r: seq<DaySummary>)
    ensures |days| <= |r| && r[..|days|] == days
    decreases |cands|
  {
    if cands == [] then
      days
    else
      var c := cands[0];
      AppendAbsent(if c.date in DatesOf(days) then days else days + [c], cands[1..])
  }

  /** The dates covered afterwards are those of the days and of the
      candidates. */
  lemma {:induction false} AppendAbsentDates(days: seq<DaySummary>, cands: seq<DaySummary>)
    ensures DatesOf(AppendAbsent(days, cands)) == DatesOf(days) + DatesOf(cands)
    decreases |cands|
  {
    if cands != [] {
      var c := cands[0];
      var rest := cands[1..];
      var next := if c.date in DatesOf(days) then days else days + [c];
      AppendAbsentDates(next, rest);
      DatesOfAppend(days, [c]);
      assert cands == [c] + rest;
      DatesOfAppend([c], rest);
    }
  }

  /** Every day afterwards is an original one or a candidate whose date was
      not among the original days. */
  lemma {:induction false} AppendAbsentOrigin(days: seq<DaySummary>, cands: seq<DaySummary>)
    ensures forall x :: x in AppendAbsent(days, cands) ==> x in days || (x in cands && x.date !in DatesOf(days))
    decreases |cands|
  {
    if cands != [] {
      var c := cands[0];
      var rest := cands[1..];
      var next := if c.date in DatesOf(days) then days else days + [c];
      AppendAbsentOrigin(next, rest);
      assert DatesOf(days) <= DatesOf(next) by {
        DatesOfAppend(days, [c]);
      }
      forall x | x in AppendAbsent(days, cands)
        ensures x in days || (x in cands && x.date !in DatesOf(days))
      {
        if x !in days {
          if x in next {
            assert x == c;
          } else {
            assert x in rest;
          }
        }
      }
    }
  }

  /** The dates covered afterwards are those of the days and of the
      candidates; every day is an original one or a candidate whose date was
      not among the original days. */
  lemma AppendAbsentContents(days: seq<DaySummary>, cands: seq<DaySummary>)
    ensures DatesOf(AppendAbsent(days, cands)) == DatesOf(days) + DatesOf(cands)
    ensures forall x :: x in AppendAbsent(days, cands) ==> x in days || (x in cands && x.date !in DatesOf(days))
  {
    AppendAbsentDates(days, cands);
    AppendAbsentOrigin(days, cands);
  }

  lemma {:induction false} AppendAbsentKeepsDistinct(days: seq<DaySummary>, cands: seq<DaySummary>)
    requires NoDupDates(days)
    ensures NoDupDates(AppendAbsent(days, cands))
    decreases |cands|
  {
    if cands != [] {
      var c := cands[0];
      if c.date in DatesOf(days) {
        AppendAbsentKeepsDistinct(days, cands[1..]);
      } else {
        AppendDistinct(days, c);
        AppendAbsentKeepsDistinct(days + [c], cands[1..]);
      }
    }
  }

  /** Dropping the first day keeps the list free of duplicates and leaves
      the first day's date uncovered. */
  lemma TailDistinct(days: seq<DaySummary>)
    requires |days| > 0 && NoDupDates(days)
    ensures NoDupDates(days[1..])
    ensures days[0].date !in DatesOf(days[1..])
    ensures DatesOf(days[1..]) <= DatesOf(days)
  {
    var rest := days[1..];
    forall i, j | 0 <= i < j < |rest|
      ensures rest[i].date != rest[j].date
    {
      assert rest[i] == days[i + 1] && rest[j] == days[j + 1];
    }
    forall k | 0 <= k < |rest|
      ensures rest[k].date != days[0].date
    {
      assert days[k + 1] == rest[k];
    }
    forall x | x in rest
      ensures x in days
    {
    }
  }

  /** A candidate whose date is new is pushed. */
  lemma AppendAbsentPush(days: seq<DaySummary>, cands: seq<DaySummary>)
    requires cands != [] && cands[0].date !in DatesOf(days)
    ensures AppendAbsent(days, cands) == AppendAbsent(days + [cands[0]], cands[1..])
  {
  }

  /** New, distinct candidates stay new and distinct once the first of them
      is pushed. */
  lemma AllNewAfterPush(days: seq<DaySummary>, cands: seq<DaySummary>)
    requires cands != [] && NoDupDates(cands) && DatesOf(days) !! DatesOf(cands)
    ensures cands[0].date !in DatesOf(days)
    ensures NoDupDates(cands[1..]) && DatesOf(days + [cands[0]]) !! DatesOf(cands[1..])
  {
    assert cands[0] in cands;
    TailDistinct(cands);
    DatesOfSnoc(days, cands[0]);
  }

  /** Candidates whose dates are all new and distinct are all appended. */
  lemma {:induction false} AppendAbsentAllNew(days: seq<DaySummary>, cands: seq<DaySummary>)
    requires NoDupDates(cands) && DatesOf(days) !! DatesOf(cands)
    ensures AppendAbsent(days, cands) == days + cands
    decreases |cands|
  {
    if cands != [] {
      AllNewAfterPush(days, cands);
      AppendAbsentPush(days, cands);
      AppendAbsentAllNew(days + [cands[0]], cands[1..]);
      assert days + [cands[0]] + cands[1..] == days + cands;
    }
  }

  /** Candidates whose dates are all present already add nothing. */
  lemma {:induction false} AppendAbsentNothingNew(days: seq<DaySummary>, cands: seq<DaySummary>)
    requires DatesOf(cands) <= DatesOf(days)
    ensures AppendAbsent(days, cands) == days
    decreases |cands|
  {
    if cands != [] {
      var c := cands[0];
      var rest := cands[1..];
      assert c in cands;
      assert DatesOf(rest) <= DatesOf(cands) by {
        forall x | x in rest
          ensures x in cands
        {
        }
      }
      AppendAbsentNothingNew(days, rest);
    }
  }

  /** The days gathered before the failure check (lines 100-148). */
  function CollectDays(cur: FetchResult<Weather>, hist: FetchResult<Weather>, fc: FetchResult<Weather>, today: string): seq<DaySummary> {
    AppendAbsent(HistoryDays(hist) + TodayDays(cur, today), ForecastDays(fc))
  }

  /** The days after placeholder synthesis, not yet sorted (lines 163-181). */
  function MergedDays(cur: FetchResult<Weather>, hist: FetchResult<Weather>, fc: FetchResult<Weather>, cal: Calendar): seq<DaySummary> {
    var collected := CollectDays(cur, hist, fc, cal.today);
    if |collected| == 1 then AppendAbsent(collected, Placeholders(Snapshot(cur), cal)) else collected
  }

  /** `${part ? `, ${part}` : ""}` */
  function Segment(part: Option<string>): string {
    if part.Some? && part.value != "" then ", " + part.value else ""
  }

  /** A missing name interpolates as the text `undefined`. */
  function NameText(name: Option<string>): string {
    if name.Some? then name.value else "undefined"
  }

  /** The template literal breaks its line before the country segment, so
      the line break and the next line's four spaces of indentation are part
      of the label. */
  const LineBreak := "\n    "

  /** The location label (lines 183-189). */
  function LocationLabel(cur: FetchResult<Weather>, query: string): string {
    if cur.Success? && cur.data.location.Some? then
      var loc := cur.data.location.value;
      NameText(loc.name) + Segment(loc.region) + LineBreak + Segment(loc.country)
    else
      query
  }

  /** The whole pipeline, from classified sub-calls to the combined result. */
  function Merge(query: string, cur: FetchResult<Weather>, hist: FetchResult<Weather>, fc: FetchResult<Weather>, cal: Calendar)
    : (r: FetchResult<CombinedWeather>)
    ensures r.Failure? <==> cur.Failure?
    ensures r.Failure? ==> r.error != "" && (cur.error != "" ==> r.error == cur.error)
    ensures r.Success? ==> Sorted(r.data.days) && multiset(r.data.days) == multiset(MergedDays(cur, hist, fc, cal))
    ensures r.Success? ==> r.data.current == cur.data.current && r.data.location == LocationLabel(cur, query)
  {
    if cur.Failure? then
      Failure(if cur.error != "" then cur.error else CurrentFailedMessage)
    else
      Success(CombinedWeather(LocationLabel(cur, query), Snapshot(cur), SortByDate(MergedDays(cur, hist, fc, cal))))
  }
}

=== FILE: sub_call.dfy ===
/**
 `fetchWeather` (src/services/weatherStack.ts:25-39): one upstream sub-call,
 turned into a tagged `FetchResult`. The request itself is I/O; what comes
 back is an input here: either the exception that `fetch` or `res.json()`
 threw, or the parsed JSON body. The HTTP status is never looked at.
 */
module SubCall {
  import opened Types

  /** A parsed JSON body. A JSON `null` is kept apart because reading
      `data.error` on it throws; numbers, strings and booleans have none of
      the fields the aggregator reads. */
  datatype Body = NullBody | Primitive | Object(fields: Weather)

  /** What the awaited `fetch(url)` / `res.json()` produced. `Threw(None)`
      is a thrown value that is not an `Error` instance. */
  datatype Response = Threw(message: Option<string>) | Parsed(body: Body)

  const ApiErrorMessage := "API error"
  const NetworkErrorMessage := "Network error"

  /** The `TypeError` message V8 gives for `null.error` (other engines word
      it differently); the catch block surfaces it because it is an `Error`
      with a non-empty message, and only that non-emptiness is relied on. */
  const NullBodyMessage := "Cannot read properties of null (reading 'error')"

  /** The body reports an API error: `success === false` or a truthy `error`. */
  predicate ReportsError(w: Weather) {
    w.success == Some(false) || w.error.Some?
  }

  /** `data.error?.info || "API error"` */
  function ApiMessage(w: Weather): string {
    if w.error.Some? && w.error.value.info.Some? && w.error.value.info.value != "" then
      w.error.value.info.value
    else
      ApiErrorMessage
  }

  /** `(e instanceof Error && e.message) || "Network error"` */
  function ThrownMessage(message: Option<string>): string {
    if message.Some? && message.value != "" then message.value else NetworkErrorMessage
  }

  function Classify(r: Response): (res: FetchResult<Weather>)
    ensures res.Failure? <==> (r.Threw? || r.body.NullBody? || (r.body.Object? && ReportsError(r.body.fields)))
    ensures res.Failure? ==> res.error != ""
    ensures r.Threw? && r.message.Some? && r.message.value != "" ==> res == Failure(r.message.value)
    ensures r.Parsed? && r.body.Object? && r.body.fields.success == Some(false) && r.body.fields.error.None? ==>
      res == Failure("API error")
    ensures forall info :: r.Parsed? && r.body.Object? && r.body.fields.error == Some(ApiError(Some(info))) && info != "" ==>
      res == Failure(info)
    ensures r.Threw? && (r.message.None? || r.message.value == "") ==> res == Failure("Network error")
    ensures r.Parsed? && r.body.Object? && r.body.fields.error.Some? &&
            (r.body.fields.error.value.info.None? || r.body.fields.error.value.info.value == "") ==>
      res == Failure("API error")
    ensures r.Parsed? && r.body.Object? && !ReportsError(r.body.fields) ==> res == Success(r.body.fields)
    ensures r.Parsed? && r.body.Primitive? ==> res == Success(NoFields)
  {
    match r
    case Threw(message) => Failure(ThrownMessage(message))
    case Parsed(NullBody) => Failure(NullBodyMessage)
    case Parsed(Primitive) => Success(NoFields)
    case Parsed(Object(w)) =>
      if ReportsError(w) then Failure(ApiMessage(w)) else Success(w)
  }

  /** The `/current` route of the end-to-end test answers
      `{ success: false, error: { info: "API down" } }` with status 500. */
  lemma ApiDownBody()
    ensures Classify(Parsed(Object(Weather(None, None, None, None, Some(ApiError(Some("API down"))), Some(false)))))
         == Failure("API down")
  {
  }
}

=== FILE: ttl_cache.dfy ===
/**
 `getCache` / `setCache` (src/services/weatherStack.ts:41-61): a namespaced
 key/value cache whose entries carry an absolute expiry time.

 `localStorage` becomes an explicit `Store` value and `Date.now()` an explicit
 `now` argument (milliseconds). The JSON serialisation of an entry is taken
 as an exact round trip; a stored string that `JSON.parse` rejects (or an
 empty one, which `!raw` already rejects) is `Unparseable`.
 */
module TtlCache {
  import opened Types

  const CacheNamespace := "ws-cache-v1"

  /** `ttlMs = 15 * 60 * 1000`, fifteen minutes. */
  const DefaultTtlMs: int := 15 * 60 * 1000

  datatype Stored<T> = Unparseable | CacheEntry(expires: int, value: T)

  /** The persistent store. `acceptsWrites` is false when `setItem` throws
      (storage disabled or over quota). */
  datatype Store<T> = Store(items: map<string, Stored<T>>, acceptsWrites: bool)

  /** What a read returns, and the store after it (an expired entry is
      removed by the read). */
  datatype Read<T> = Read(value: Option<T>, store: Store<T>)

  /** `${CACHE_NS}:${key}` */
  function StorageKey(key: string): string {
    CacheNamespace + ":" + key
  }

  /** Distinct cache keys never share a storage slot. */
  lemma StorageKeyInjective(a: string, b: string)
    requires StorageKey(a) == StorageKey(b)
    ensures a == b
  {
    var n := |CacheNamespace + ":"|;
    assert a == StorageKey(a)[n..];
    assert b == StorageKey(b)[n..];
  }

  /** An entry is still a hit at exactly its expiry time: only `now > expires`
      expires it. */
  predicate Fresh<T>(e: Stored<T>, now: int) {
    e.CacheEntry? && now <= e.expires
  }

  function GetCache<T>(s: Store<T>, now: int, key: string): (r: Read<T>)
    ensures var k := StorageKey(key);
      && (r.value.Some? <==> k in s.items && Fresh(s.items[k], now))
      && (r.value.Some? ==> r.value.value == s.items[k].value && r.store == s)
      && (k !in s.items || s.items[k].Unparseable? ==> r.store == s)
      && (k in s.items && s.items[k].CacheEntry? && now > s.items[k].expires ==>
            r.store == Store(s.items - {k}, s.acceptsWrites))
  {
    var k := StorageKey(key);
    if k !in s.items then
      Read(None, s)
    else
      match s.items[k]
      case Unparseable => Read(None, s)
      case CacheEntry(expires, value) =>
        if now > expires then Read(None, Store(s.items - {k}, s.acceptsWrites))
        else Read(Some(value), s)
  }

  /** `None` when `setItem` throws; the exception is not caught. */
  function SetCache<T>(s: Store<T>, now: int, key: string, value: T, ttlMs: int): (r: Option<Store<T>>)
    ensures r.Some? <==> s.acceptsWrites
    ensures r.Some? ==> r.value.acceptsWrites && r.value.items.Keys == s.items.Keys + {StorageKey(key)}
    ensures r.Some? ==> forall k :: k in s.items && k != StorageKey(key) ==> r.value.items[k] == s.items[k]
    ensures r.Some? ==> Fresh(r.value.items[StorageKey(key)], now + ttlMs)
    ensures r.Some? ==> !Fresh(r.value.items[StorageKey(key)], now + ttlMs + 1)
  {
    if s.acceptsWrites then
      Some(Store(s.items[StorageKey(key) := CacheEntry(now + ttlMs, value)], true))
    else
      None
  }

  /** Reading back a written entry returns the value up to and including
      its expiry time. */
  lemma WriteThenReadHits<T>(s: Store<T>, written: int, key: string, value: T, ttlMs: int, later: int)
    requires s.acceptsWrites
    requires later <= written + ttlMs
    ensures var s' := SetCache(s, written, key, value, ttlMs).value;
      GetCache(s', later, key) == Read(Some(value), s')
  {
  }

  /** After the expiry time the read misses and removes the entry, leaving
      every other entry alone. */
  lemma WriteThenReadExpired<T>(s: Store<T>, written: int, key: string, value: T, ttlMs: int, later: int)
    requires s.acceptsWrites
    requires later > written + ttlMs
    ensures var s' := SetCache(s, written, key, value, ttlMs).value;
      var r := GetCache(s', later, key);
      && r.value.None?
      && StorageKey(key) !in r.store.items
      && forall k :: k in s.items && k != StorageKey(key) ==> k in r.store.items && r.store.items[k] == s.items[k]
  {
  }

  /** A write under one key is invisible to reads under another. */
  lemma WritesAreIsolated<T>(s: Store<T>, now: int, key: string, value: T, ttlMs: int, other: string, later: int)
    requires s.acceptsWrites && other != key
    ensures GetCache(SetCache(s, now, key, value, ttlMs).value, later, other).value == GetCache(s, later, other).value
  {
    if StorageKey(other) == StorageKey(key) {
      StorageKeyInjective(other, key);
    }
  }
}

=== FILE: types.dfy ===
/**
 The records of the weather widget (src/types.ts), as immutable datatypes.

 Upstream JSON is duck-typed: any field may be missing or null at run time,
 whatever the TypeScript declaration says. Every field that the code reads with
 `?.`, `??` or a truthiness test is therefore an `Option`, and `None` stands for
 both `undefined` and `null`. Numbers are JavaScript numbers; no arithmetic is
 done on them, so they are modelled as `real`.
 */
module Types {

  datatype Option<+T> = None | Some(value: T) {
    /** `x ?? default` */
    function GetOr(default: T): T {
      match this
      case Some(v) => v
      case None => default
    }
  }

  /** `Success<T> | Error`: the tagged outcome every sub-call and lookup returns. */
  datatype FetchResult<+T> = Success(data: T) | Failure(error: string)

  datatype Location = Location(name: Option<string>, country: Option<string>, region: Option<string>)

  /** One instantaneous snapshot; also the shape of each `hourly` element. */
  datatype CurrentWeather = CurrentWeather(
    temperature: Option<real>,
    feelslike: Option<real>,
    weatherDescriptions: Option<seq<string>>,
    weatherIcons: Option<seq<string>>,
    windSpeed: Option<real>,
    windDir: Option<string>,
    humidity: Option<real>,
    pressure: Option<real>,
    precip: Option<real>,
    uvIndex: Option<real>,
    visibility: Option<real>)

  /** A day record. Upstream day records carry `hourly`; the days the
      aggregator builds never do. */
  datatype DaySummary = DaySummary(
    date: string,
    avgtemp: Option<real>,
    precip: Option<real>,
    description: Option<string>,
    icon: Option<string>,
    wind: Option<real>,
    pressure: Option<real>,
    hourly: Option<seq<CurrentWeather>>)

  /** One `[key, value]` pair of a JSON object, in `Object.entries` order.
      A null value reads like a record with every field missing. */
  datatype Entry = Entry(key: string, value: DaySummary)

  /** The API's error object; only `info` is read. */
  datatype ApiError = ApiError(info: Option<string>)

  /** An upstream response body. `success` is not declared in types.ts but is
      read by the classifier. */
  datatype Weather = Weather(
    location: Option<Location>,
    historical: Option<seq<Entry>>,
    forecast: Option<seq<Entry>>,
    current: Option<CurrentWeather>,
    error: Option<ApiError>,
    success: Option<bool>)

  datatype CombinedWeather = CombinedWeather(
    location: string,
    current: Option<CurrentWeather>,
    days: seq<DaySummary>)

  /** A body that has none of the fields the aggregator reads. */
  const NoFields: Weather := Weather(None, None, None, None, None, None)

  /** The set of dates a day list covers. */
  function DatesOf(days: seq<DaySummary>): set<string> {
    set d | d in days :: d.date
  }

  /** No date occurs twice. */
  predicate NoDupDates(days: seq<DaySummary>) {
    forall i, j :: 0 <= i < j < |days| ==> days[i].date != days[j].date
  }

  /** The keys of a JSON object are distinct. */
  predicate DistinctKeys(es: seq<Entry>) {
    forall i, j :: 0 <= i < j < |es| ==> es[i].key != es[j].key
  }

  function KeysOf(es: seq<Entry>): set<string> {
    set e | e in es :: e.key
  }

  lemma DatesOfAppend(a: seq<DaySummary>, b: seq<DaySummary>)
    ensures DatesOf(a + b) == DatesOf(a) + DatesOf(b)
  {
    assert forall d :: d in a + b <==> d in a || d in b;
  }

  lemma DatesOfSnoc(days: seq<DaySummary>, d: DaySummary)
    ensures DatesOf(days + [d]) == DatesOf(days) + {d.date}
  {
    DatesOfAppend(days, [d]);
    assert DatesOf([d]) == {d.date} by {
      assert d in [d];
    }
  }

  /** A day whose date is new keeps a list free of duplicate dates. */
  lemma PrependDistinct(d: DaySummary, days: seq<DaySummary>)
    requires NoDupDates(days) && d.date !in DatesOf(days)
    ensures NoDupDates([d] + days)
  {
    var r := [d] + days;
    forall i, j | 0 <= i < j < |r|
      ensures r[i].date != r[j].date
    {
      if i == 0 {
        assert r[j] in days;
      } else {
        assert r[i] == days[i - 1] && r[j] == days[j - 1];
      }
    }
  }

  lemma AppendDistinct(days: seq<DaySummary>, d: DaySummary)
    requires NoDupDates(days) && d.date !in DatesOf(days)
    ensures NoDupDates(days + [d])
  {
    var r := days + [d];
    forall i, j | 0 <= i < j < |r|
      ensures r[i].date != r[j].date
    {
      if j == |days| {
        assert r[i] in days;
      }
    }
  }
}

=== FILE: use_weather.dfy ===
/**
 The `useWeather` hook (src/hooks/useWeather.ts) as a state machine over
 `{query, data, selectedDate, loading, error}`.

 React's scheduling is abstracted: running the effect after a query change,
 and settling the promise it started, are separate transitions. `today` is
 the `YYYY-MM-DD` string the hook computes when the promise resolves.
 */
module UseWeather {
  import opened Types
  import opened WeatherStack

  datatype HookState = HookState(
    query: string,
    data: Option<CombinedWeather>,
    selectedDate: Option<string>,
    loading: bool,
    error: Option<string>)

  /** The state before the first effect runs (lines 6-10). */
  function Initial(initialQuery: string): HookState {
    HookState(initialQuery, None, None, false, None)
  }

  /** On the first render nothing is shown or selected, and the effect
      starts a lookup exactly when the initial query is non-empty. */
  lemma FirstRenderFetchesInitialQuery(initialQuery: string)
    ensures var step := RunEffect(Initial(initialQuery));
      && (step.fetched.Some? <==> initialQuery != "")
      && step.state.loading == (initialQuery != "")
      && step.state.data.None? && step.state.error.None?
      && Selected(step.state).None?
  {
  }

  /** The state after the effect body has run, and the query it fetched, if
      any. */
  datatype EffectStep = EffectStep(state: HookState, fetched: Option<string>)

  /** The effect run for the current query (lines 12-18): an empty query
      does nothing; otherwise loading starts, the error is cleared, and a
      lookup for the query is started. */
  function RunEffect(s: HookState): (step: EffectStep)
    ensures s.query == "" ==> step == EffectStep(s, None)
    ensures s.query != "" ==>
      && step.fetched == Some(s.query)
      && step.state == HookState(s.query, s.data, s.selectedDate, true, None)
  {
    if s.query == "" then EffectStep(s, None)
    else EffectStep(s.(loading := true, error := None), Some(s.query))
  }

  /** `setQuery(q)`: the effect depends on `[query]`, so it runs again only
      when the query actually changes. */
  function SetQuery(s: HookState, q: string): (step: EffectStep)
    ensures step.state.query == q
    ensures q == s.query ==> step == EffectStep(s, None)
    ensures q != s.query && q == "" ==> step == EffectStep(s.(query := q), None)
    ensures q != s.query && q != "" ==>
      && step.fetched == Some(q)
      && step.state == HookState(q, s.data, s.selectedDate, true, None)
  {
    if q == s.query then EffectStep(s, None) else RunEffect(s.(query := q))
  }

  /** Submitting the same query twice starts one lookup, not two. */
  lemma SameQueryFetchesOnce(s: HookState, q: string)
    requires q != "" && q != s.query
    ensures var first := SetQuery(s, q);
      && first.fetched == Some(q)
      && SetQuery(first.state, q).fetched.None?
  {
  }

  /** The first day with the given date (`days.find((d) => d.date === date)`). */
  function FindByDate(days: seq<DaySummary>, date: string): (r: Option<DaySummary>)
    ensures r.Some? <==> date in DatesOf(days)
    ensures r.Some? ==> r.value in days && r.value.date == date
    ensures r.Some? ==> exists i :: 0 <= i < |days| && days[i] == r.value &&
                                    forall j :: 0 <= j < i ==> days[j].date != date
  {
    if days == [] then None
    else if days[0].date == date then Some(days[0])
    else
      var r := FindByDate(days[1..], date);
      assert days == [days[0]] + days[1..];
      if r.Some? then
        var i :| 0 <= i < |days[1..]| && days[1..][i] == r.value && forall j :: 0 <= j < i ==> days[1..][j].date != date;
        assert days[i + 1] == r.value;
        r
      else
        r
  }

  /** The default selection (lines 23-27): today when some day has today's
      date, else the middle day, else nothing. */
  function DefaultSelection(days: seq<DaySummary>, today: string): (r: Option<string>)
    ensures r.None? <==> |days| == 0
    ensures r.Some? ==> r.value in DatesOf(days)
    ensures r == Some(today) <==> today in DatesOf(days)
    ensures today !in DatesOf(days) && |days| > 0 ==> r == Some(days[|days| / 2].date)
  {
    match FindByDate(days, today)
    case Some(d) => Some(d.date)
    case None => if |days| > 0 then Some(days[|days| / 2].date) else None
  }

  /** The promise settles (lines 19-33). Loading always ends. */
  function Settle(s: HookState, today: string, c: Completion): (t: HookState)
    ensures !t.loading && t.query == s.query
    ensures c.Resolved? && c.result.Success? ==>
      && t.data == Some(c.result.data)
      && t.selectedDate == DefaultSelection(c.result.data.days, today)
      && t.error == s.error
    ensures c.Resolved? && c.result.Failure? ==>
      && t.error == Some(c.result.error)
      && t.data.None?
      && t.selectedDate == s.selectedDate
    ensures c.Rejected? ==> t == s.(loading := false)
  {
    match c
    case Rejected => s.(loading := false)
    case Resolved(Success(data)) =>
      s.(data := Some(data), selectedDate := DefaultSelection(data.days, today), loading := false)
    case Resolved(Failure(message)) =>
      s.(error := Some(message), data := None, loading := false)
  }

  /** `setSelectedDate`, as called when a day tile is clicked. */
  function SelectDate(s: HookState, date: string): (t: HookState)
    ensures t.selectedDate == Some(date) && t.data == s.data
    ensures t.query == s.query && t.loading == s.loading && t.error == s.error
  {
    s.(selectedDate := Some(date))
  }

  /** `selected` (lines 36-39): the first day whose date is the selected
      date; nothing when there is no data, no (or an empty) selected date, or
      no such day. */
  function Selected(s: HookState): (r: Option<DaySummary>)
    ensures r.Some? <==>
      s.data.Some? && s.selectedDate.Some? && s.selectedDate.value != "" && s.selectedDate.value in DatesOf(s.data.value.days)
    ensures r.Some? ==> r.value in s.data.value.days && r.value.date == s.selectedDate.value
    ensures r.Some? ==> exists i :: 0 <= i < |s.data.value.days| && s.data.value.days[i] == r.value &&
                                    forall j :: 0 <= j < i ==> s.data.value.days[j].date != s.selectedDate.value
  {
    if s.data.None? || s.selectedDate.None? || s.selectedDate.value == "" then None
    else FindByDate(s.data.value.days, s.selectedDate.value)
  }

  /** After a successful lookup with at least one day, and dates that are
      never empty, a day is selected: today's when there is one. */
  lemma SuccessSelectsADay(s: HookState, today: string, data: CombinedWeather)
    requires |data.days| > 0
    requires forall d :: d in data.days ==> d.date != ""
    ensures var t := Settle(s, today, Resolved(Success(data)));
      && Selected(t).Some?
      && (today in DatesOf(data.days) ==> Selected(t).value.date == today)
  {
    var t := Settle(s, today, Resolved(Success(data)));
    var date := t.selectedDate.value;
    var k :| k in data.days && k.date == date;
  }

  /** Clicking a tile selects exactly that tile's day when dates are distinct. */
  lemma ClickSelectsTile(s: HookState, i: int)
    requires s.data.Some? && 0 <= i < |s.data.value.days|
    requires NoDupDates(s.data.value.days) && s.data.value.days[i].date != ""
    ensures Selected(SelectDate(s, s.data.value.days[i].date)) == Some(s.data.value.days[i])
  {
    var days := s.data.value.days;
    assert days[i] in days;
    var r := Selected(SelectDate(s, days[i].date));
    var j :| 0 <= j < |days| && days[j] == r.value;
  }
}

=== FILE: weather_stack.dfy ===
/**
 `fetchCombined` (src/services/weatherStack.ts:63-200): the cache-aware
 lookup. A fresh cache entry is returned without any sub-call; otherwise the
 three sub-calls are made, one after the other, their outcomes merged, and a
 successful result written back with a fifteen-minute lifetime.

 The environment is explicit: `readMs` is `Date.now()` when the cache is
 read, `writeMs` when it is written (later, after three awaited sub-calls),
 and the calendar supplies the date strings. The upstream answers are inputs;
 the requests that would be sent are returned as a trace.
 */
module WeatherStack {
  import opened Types
  import opened SubCall
  import opened TtlCache
  import opened Pipeline

  const ForecastDayCount: int := 3

  /** A sub-call as sent: endpoint and parameters, without the access key
      and URL encoding. */
  datatype Request =
    | CurrentRequest(query: string)
    | HistoricalRequest(query: string, dateStart: string, dateEnd: string)
    | ForecastRequest(query: string, forecastDays: int)

  /** What each endpoint answers, were it asked. */
  datatype Responses = Responses(current: Response, historical: Response, forecast: Response)

  datatype Env = Env(readMs: int, writeMs: int, cal: Calendar)

  /** How the returned promise settles: resolved with a result, or rejected
      because writing the cache threw. */
  datatype Completion = Resolved(result: FetchResult<CombinedWeather>) | Rejected

  datatype Lookup = Lookup(completion: Completion, store: Store<CombinedWeather>, requests: seq<Request>)

  /** `combined:${query}` */
  function CacheKey(query: string): string {
    "combined:" + query
  }

  lemma CacheKeyInjective(a: string, b: string)
    requires StorageKey(CacheKey(a)) == StorageKey(CacheKey(b))
    ensures a == b
  {
    StorageKeyInjective(CacheKey(a), CacheKey(b));
    assert a == CacheKey(a)[|"combined:"|..];
    assert b == CacheKey(b)[|"combined:"|..];
  }

  /** The three sub-calls, in the order they are awaited (lines 81-98): the
      historical window runs from three days back to yesterday. */
  function SubCalls(query: string, cal: Calendar): seq<Request> {
    [CurrentRequest(query),
     HistoricalRequest(query, cal.dayAt(-3), cal.dayAt(-1)),
     ForecastRequest(query, ForecastDayCount)]
  }

  /** The aggregator without the cache: classify each answer, then merge. */
  function Aggregate(query: string, responses: Responses, cal: Calendar): FetchResult<CombinedWeather> {
    Merge(query, Classify(responses.current), Classify(responses.historical), Classify(responses.forecast), cal)
  }

  /** The entry is there and has not expired at time `now`. */
  predicate CachedAt(store: Store<CombinedWeather>, now: int, query: string) {
    StorageKey(CacheKey(query)) in store.items && Fresh(store.items[StorageKey(CacheKey(query))], now)
  }

  function FetchCombined(store: Store<CombinedWeather>, env: Env, query: string, responses: Responses): (l: Lookup)
    ensures var k := StorageKey(CacheKey(query));
      CachedAt(store, env.readMs, query) ==>
        l == Lookup(Resolved(Success(store.items[k].value)), store, [])
    ensures !CachedAt(store, env.readMs, query) ==> l.requests == SubCalls(query, env.cal)
    ensures var k := StorageKey(CacheKey(query));
      var r := Aggregate(query, responses, env.cal);
      !CachedAt(store, env.readMs, query) && r.Failure? ==>
        && l.completion == Resolved(r)
        && l.store.items.Keys <= store.items.Keys
        && forall k' :: k' in l.store.items ==> l.store.items[k'] == store.items[k']
    ensures var k := StorageKey(CacheKey(query));
      var r := Aggregate(query, responses, env.cal);
      !CachedAt(store, env.readMs, query) && r.Success? && store.acceptsWrites ==>
        && l.completion == Resolved(r)
        && k in l.store.items && l.store.items[k] == CacheEntry(env.writeMs + DefaultTtlMs, r.data)
    ensures !CachedAt(store, env.readMs, query) && Aggregate(query, responses, env.cal).Success? && !store.acceptsWrites ==>
      l.completion == Rejected
    ensures forall k' :: k' != StorageKey(CacheKey(query)) ==>
      (k' in l.store.items <==> k' in store.items) && (k' in store.items ==> l.store.items[k'] == store.items[k'])
    ensures l.store.acceptsWrites == store.acceptsWrites
    ensures !CachedAt(store, env.readMs, query) && (Aggregate(query, responses, env.cal).Failure? || !store.acceptsWrites) ==>
      l.store == GetCache(store, env.readMs, CacheKey(query)).store
  {
    var read := GetCache(store, env.readMs, CacheKey(query));
    match read.value
    case Some(cached) =>
      Lookup(Resolved(Success(cached)), read.store, [])
    case None =>
      var result := Aggregate(query, responses, env.cal);
      if result.Failure? then
        Lookup(Resolved(result), read.store, SubCalls(query, env.cal))
      else
        match SetCache(read.store, env.writeMs, CacheKey(query), result.data, DefaultTtlMs)
        case None => Lookup(Rejected, read.store, SubCalls(query, env.cal))
        case Some(written) => Lookup(Resolved(result), written, SubCalls(query, env.cal))
  }

  /** A second lookup for the same query within the lifetime of the entry the
      first one wrote returns that value unchanged and makes no sub-call. */
  lemma RepeatedLookupHits(store: Store<CombinedWeather>, env1: Env, env2: Env, query: string,
                           first: Responses, second: Responses)
    requires !CachedAt(store, env1.readMs, query) && store.acceptsWrites
    requires Classify(first.current).Success?
    requires env2.readMs <= env1.writeMs + DefaultTtlMs
    ensures var l1 := FetchCombined(store, env1, query, first);
      && l1.requests == SubCalls(query, env1.cal)
      && l1.completion == Resolved(Aggregate(query, first, env1.cal))
      && FetchCombined(l1.store, env2, query, second) == Lookup(l1.completion, l1.store, [])
  {
  }

  /** Once that lifetime has passed, the next lookup makes the sub-calls
      again; the stale entry is gone, replaced only by a new write. */
  lemma ExpiredLookupRefetches(store: Store<CombinedWeather>, env1: Env, env2: Env, query: string,
                               first: Responses, second: Responses)
    requires !CachedAt(store, env1.readMs, query) && store.acceptsWrites
    requires Classify(first.current).Success?
    requires env2.readMs > env1.writeMs + DefaultTtlMs
    ensures var l2 := FetchCombined(FetchCombined(store, env1, query, first).store, env2, query, second);
      && l2.requests == SubCalls(query, env2.cal)
      && (StorageKey(CacheKey(query)) in l2.store.items ==>
            l2.store.items[StorageKey(CacheKey(query))].expires == env2.writeMs + DefaultTtlMs)
  {
  }

  /** A lookup whose cache write was refused leaves no usable entry behind:
      the next lookup for the query, at any time, makes the sub-calls again. */
  lemma RejectedLookupRefetches(store: Store<CombinedWeather>, env1: Env, env2: Env, query: string,
                                first: Responses, second: Responses)
    requires FetchCombined(store, env1, query, first).completion.Rejected?
    ensures var l1 := FetchCombined(store, env1, query, first);
      && !l1.store.acceptsWrites
      && FetchCombined(l1.store, env2, query, second).requests == SubCalls(query, env2.cal)
  {
  }

  /** An unreadable stored entry behaves as a miss: the lookup does what it
      would do with no entry at all. */
  lemma UnreadableEntryIsMiss(store: Store<CombinedWeather>, env: Env, query: string, responses: Responses)
    requires StorageKey(CacheKey(query)) in store.items
    requires store.items[StorageKey(CacheKey(query))].Unparseable?
    ensures var l := FetchCombined(store, env, query, responses);
      var without := Store(store.items - {StorageKey(CacheKey(query))}, store.acceptsWrites);
      && l.requests == SubCalls(query, env.cal)
      && l.completion == FetchCombined(without, env, query, responses).completion
  {
  }

  /** When the current sub-call fails, the lookup fails with exactly the
      sub-call's message: the classifier never yields an empty message, so the
      "Current weather API failed" fallback is never used. */
  lemma CurrentFailureSurfaces(store: Store<CombinedWeather>, env: Env, query: string, responses: Responses)
    requires !CachedAt(store, env.readMs, query)
    requires Classify(responses.current).Failure?
    ensures FetchCombined(store, env, query, responses).completion
         == Resolved(Failure(Classify(responses.current).error))
  {
  }

  /** Historical and forecast failures alone never fail the lookup. */
  lemma SideFailuresTolerated(store: Store<CombinedWeather>, env: Env, query: string, responses: Responses)
    requires store.acceptsWrites
    requires Classify(responses.current).Success?
    ensures var l := FetchCombined(store, env, query, responses);
      l.completion.Resolved? && l.completion.result.Success?
  {
  }

  /** A lookup for one query leaves what another query reads unchanged. */
  lemma LookupsAreIsolated(store: Store<CombinedWeather>, env: Env, query: string, responses: Responses,
                           other: string, later: int)
    requires other != query
    ensures GetCache(FetchCombined(store, env, query, responses).store, later, CacheKey(other)).value
         == GetCache(store, later, CacheKey(other)).value
  {
    if StorageKey(CacheKey(other)) == StorageKey(CacheKey(query)) {
      CacheKeyInjective(other, query);
    }
  }
}
